=== FILE: README.md ===
# PandasGPT core in Dafny

PandasGPT answers a question about a pandas DataFrame in four steps:

1. A language model writes a pandas snippet.
2. A static **guard** (`validate_code`) vets the snippet before anything runs.
3. A **repair loop** (`try_generate_and_execute`) runs the vetted snippet in a sandbox. On a guard or sandbox failure it asks the model again with a repair prompt, at most three times.
4. A **critic** (`cross_check`) sends the question, the dataset context and the code to the model. It turns the reply into a `valid` / `reason` / `fix_hint` verdict.

This project models those three parts and proves properties about them.

- `Guard` (guard.dfy) models the guard:
  - The parsed tree is a small `Node` datatype (pyast.dfy). Nodes the guard has no handler for appear as `Other`, with their children in field order.
  - `Visit` is `SafeNodeVisitor`. It returns the errors in the order they were appended and the recorded `df["<field>"]` columns.
  - `CheckColumns` is `_check_columns`, and `NameIssues` is `NameCollector`.
  - `ValidateCode` puts them together as `validate_code` does: safety errors first, then column issues, then name issues.
  - `GuardLemmas` (guard_lemmas.dfy) states what each part means, without the walk:
    - counts of each error message over a pre-order listing of the tree;
    - the exact set of recorded columns;
    - an acceptance condition that holds exactly when the guard passes the snippet.
- `Fences` (fences.dfy) models the reply clean-up that the code generator and the critic share:
  - strip the reply;
  - keep the text after an opening ```` ``` ```` fence, up to the next fence;
  - drop a leading `python` or `json` tag.
- `MetaAgent` (meta_agent.dfy) models the repair prompt, the generator wrapper and the loop:
  - The loop returns its result together with a trace: every call it made to the model, the guard and the sandbox.
  - `TryGenerateAndExecute` is the loop as a recursive function. `TryGenerateAndExecuteLoop` is the `for` loop with its early return, and is proved to compute the same run.
  - `RepairLoop` (repair_loop.dfy) proves properties of the trace: call counts, call ordering, the prompts sent and how a run ends.
- `CrossChecker` (crosschecker.dfy) models the critic's prompt and the normalisation of its reply. `json.loads` returns a `Json` value or reports a decode error.
- `Text`, `Seqs` and `Options` are shared helpers: Python's `str.strip`, `str.join` and `str(n)`, counting and flat-mapping over sequences, and `Option`/`Result`.

The external parts are parameters:
- the language model is `(call number, prompt) -> reply`;
- `ast.parse` is a function returning a tree or a `SyntaxFault`;
- `difflib.get_close_matches(col, known, n=1)` is a function returning a list of suggestions;
- the sandbox `run_in_repl` is `(attempt number, code) -> ExecOk(result) | ExecError(message)`;
- `json.loads` is `string -> Option<Json>`, where `None` is a `JSONDecodeError`.

The call and attempt numbers only let the model and the sandbox answer differently on each call. The source passes no such number. The trace records them, so the lemmas can say which call produced which code: model call 0 is on the original prompt, and model call `k` follows the failure of attempt `k`.

The repair-prompt builder is a field of `Collaborators`. `Wired` fills it with `BuildRepairPrompt`, as `try_generate_and_execute` does. The loop lemmas hold for any builder. `PromptsKeepBase` requires the real one.

Two behaviours of the loop are easy to miss when reading it:
- A run that exhausts its three attempts calls the model four times. It calls it once before the loop (agents/meta_agent.py:54) and once at the end of each failed attempt (agents/meta_agent.py:75), including the last one (`RepairLoop.RunCounts`).
- A failed run returns the model's reply to that fourth call, call number 3 (agents/meta_agent.py:78-82). That code was never guarded or run: it is the last call of the trace. The error message it carries describes the third attempt's code (`RepairLoop.RunEnds`).

## Model

| member | source | states |
|---|---|---|
| Text.Strip | agents/meta_agent.py:41 | `str.strip()` leaves no whitespace (Python's `isspace` set) at either end and never lengthens the text |
| Text.StripIsSlice | agents/meta_agent.py:41 | the stripped text is one contiguous block of the input, and everything before and after that block is whitespace |
| Text.StripIdempotent | agents/meta_agent.py:41 | stripping twice is the same as stripping once |
| Text.Join | agents/meta_agent.py:62 | the `"; "`-joined issue message is empty for no issues and is the issue itself for one issue; it starts with the first issue, contains every issue, and is exactly as long as the issues plus one separator between each two neighbours |
| Text.JoinSnoc | agents/meta_agent.py:62 | joining one more part appends the separator and then that part, so the parts appear left to right with one separator between neighbours |
| Text.JoinThreeExample | agents/meta_agent.py:62 | `"; ".join(["a", "b", "c"])` is `a; b; c` |
| Text.NatToString | agents/meta_agent.py:81 | `str(n)` is non-empty canonical decimal digits (no leading zero unless n is 0) whose value is n |
| Fences.UpToFence | agents/meta_agent.py:43 | the first piece of `split("```")` is a prefix with no fence in it, ending at the first fence or at the end of the text |
| Fences.UpToFenceUnique | agents/meta_agent.py:43 | any prefix with those three properties is that first piece, so they define it completely |
| Fences.FencedSegmentFacts | agents/meta_agent.py:42-43 | for a text opening with a fence, piece `[1]` directly follows the opening fence, no fence starts inside it, and it is followed by a fence or by the end of the text, so it is exactly the text up to the first fence after the opening one |
| Fences.NoEarlierFence | agents/meta_agent.py:42-43 | no fence starts at any position of piece `[1]` of a text that opens with a fence |
| Fences.Unfence | agents/meta_agent.py:42-46 | the clean-up itself: the stripped first fenced segment of a fenced reply, then a leading tag dropped; what it promises is stated by `Fences.UnfenceFacts` |
| Fences.UnfenceFacts | agents/meta_agent.py:42-46 | a fenced reply comes out with no fence at all; an unfenced reply is unchanged unless it starts with the tag (ignoring case), in which case it loses the tag and is stripped |
| Fences.UnfenceStrippedFacts | agents/meta_agent.py:41-47 | the whole clean-up of a raw reply: no surrounding whitespace, plus the fenced, tagged and untagged cases above |
| Fences.TagPrefixOfIdentifierExample | agents/meta_agent.py:45-46 | the `python` tag is dropped even when it only begins an identifier: `pythonic = 1` becomes `ic = 1` |
| Guard.UnknownColumnIssue | guard.py:119-121 | the unknown-column issue is `Unknown column '<col>'.` with no suggestion, and that text followed by ` Did you mean '<first suggestion>'?` otherwise |
| Guard.UnknownColumnIssueShape | guard.py:119-121 | every unknown-column issue starts by naming the column and ends in `?` exactly when the matcher returned a suggestion |
| Guard.RootNameLoop | guard.py:99-107 | the `while` over `.value` returns the leftmost name of the attribute chain, or `None` when the chain starts at a non-name (the recursive `RootName`) |
| Guard.UnknownColumns | guard.py:117-118 | a column is reported exactly when it is used and not known, and a duplicate-free input gives a duplicate-free result |
| Guard.CheckColumns | guard.py:114-122 | one issue per unknown used column, in enumeration order, each carrying the matcher's first suggestion when it returned one |
| Guard.ValidateCode | guard.py:144-181 | `ok` holds exactly when the issue list is empty; unparsable code gives `ok = false` with the single `SyntaxError: <msg> (line <n>)` issue |
| Guard.Visit | guard.py:53-93 | `SafeNodeVisitor.visit`: a node's own handler, then its children in field order; what it computes is stated by `GuardLemmas.VisitIsPreOrder` |
| GuardLemmas.VisitIsPreOrder | guard.py:53-93 | the visitor's errors and columns are those of each node's handler on its own, concatenated over a pre-order listing: every handler passes on to `generic_visit`, and imports have no children to visit |
| GuardLemmas.VisitAllIsPreOrder | guard.py:61-93 | the same for a list of sibling nodes, such as a call's arguments or a statement body |
| GuardLemmas.RootOfChain | guard.py:99-107 | the root of `base.a1…an` is the root of `base` |
| GuardLemmas.CallIssueInjective | guard.py:63 | distinct callees give distinct call messages |
| GuardLemmas.AttributeIssueInjective | guard.py:70 | distinct roots give distinct attribute messages |
| GuardLemmas.UnknownNameIssueInjective | guard.py:177 | distinct names give distinct unknown-variable messages |
| GuardLemmas.SafetyIssuesDistinct | guard.py:54-70 | the import, call and attribute messages never coincide |
| GuardLemmas.NodeErrorsOfFlagged | guard.py:54-70 | a node's own handler adds exactly one error when the node is an import, a direct call to `eval`/`exec`/`__import__`, or an attribute rooted at a refused name, and none otherwise |
| GuardLemmas.SafetyErrorCount | guard.py:53-71 | the visitor reports exactly as many errors as the tree has flagged nodes, so it reports none exactly when no node is flagged |
| GuardLemmas.ImportIssueCount | guard.py:54-58 | "Import statements are not allowed" appears once per `import` or `from … import` node |
| GuardLemmas.CallIssueCount | guard.py:61-64 | "Disallowed call to f()" appears once per direct call of `f` when `f` is `eval`, `exec` or `__import__`, and never for any other name |
| GuardLemmas.AttributeIssueCount | guard.py:67-71 | "Disallowed attribute access 'r.*'" appears once per attribute node rooted at `r` when `r` is non-empty and starts with a refused prefix, and never otherwise |
| GuardLemmas.PrefixRootExamples | guard.py:38-40 | refusal is by prefix (`osmium` and `__builtins__` are refused); `df` and the empty root are not |
| GuardLemmas.OsPathJoinTwoIssues | guard.py:67-71 | `os.path.join()` gives the attribute issue twice, once for each attribute node of the chain |
| GuardLemmas.ColumnRecordedIff | guard.py:76-93 | a string is a recorded column exactly when some node is `df[<that string constant>]` and the string is not date-like |
| GuardLemmas.NothingElseRecorded | guard.py:85-92 | a date-like string, or one no `df[...]` node reads, is never recorded |
| GuardLemmas.DateLikeExamples | guard.py:77 | `YYYY-MM` and `YYYY-MM-DD` match, as does one trailing newline (the regex's `$`); a one-digit month, two newlines, or a plain name do not |
| GuardLemmas.DateSliceAccepted | guard.py:85-89 | `df["2023-01"]` passes even with no known columns, because a date slice is not a column |
| GuardLemmas.ColumnIssueCount | guard.py:114-122 | there are exactly as many column issues as recorded columns missing from the known columns |
| GuardLemmas.ColumnIssuesNameUnknownColumns | guard.py:117-121 | every column issue names a column that is not known |
| GuardLemmas.NameIssueCount | guard.py:174-179 | one issue per read of a name that is neither allowed nor a recorded column; "unknown variable 'x'" once per read of `x` exactly when `x` is neither; stores and deletes give none |
| GuardLemmas.NameIssuesNameUnknownReads | guard.py:175-177 | every name issue names a name that is neither allowed nor a recorded column |
| GuardLemmas.NameIssuesShrink | guard.py:176 | allowing more names can only remove name issues |
| GuardLemmas.ValidateOkIff | guard.py:161-181 | a parsed snippet passes exactly when no node is flagged, every recorded column is known, and every name read is allowed or a recorded column |
| GuardLemmas.IssueOrder | guard.py:161-181 | the issue list is the safety errors, then the column issues, then the name issues, with each block's length and kinds as above |
| GuardLemmas.AllowedNamesMonotone | guard.py:144-181 | widening `allowed_names` never adds an issue and never turns a pass into a failure |
| GuardLemmas.MisspelledColumnExample | guard.py:114-122 | `df["temprature"].mean()` against the column `temperature` fails with only the unknown-column issue, which carries the suggestion |
| GuardLemmas.ImportOsExample | guard.py:161-181 | `import …` followed by `os.system("ls")` gives, in order, the import issue, the `os.*` attribute issue and the unknown-variable issue for `os` |
| MetaAgent.BuildRepairPrompt | agents/meta_agent.py:13-28 | `build_repair_prompt`: the original prompt plus the failure block; what it contains is stated by `MetaAgent.RepairPromptEmbeds` |
| MetaAgent.RepairPromptEmbeds | agents/meta_agent.py:13-28 | the repair prompt starts with the original prompt and contains the bold failure kind, the failing code and the stripped error message |
| MetaAgent.WrapPromptEmbeds | agents/meta_agent.py:33-34 | the text sent to the model starts with the template and contains the prompt |
| MetaAgent.GenerateCodeSequence | agents/meta_agent.py:31-47 | `generate_code_sequence`: the model's reply to the wrapped prompt, cleaned; what it returns is stated by `MetaAgent.GeneratedCodeFacts` |
| MetaAgent.GeneratedCodeFacts | agents/meta_agent.py:31-47 | generated code has no surrounding whitespace; a fenced reply gives code without any fence; an unfenced reply loses only a leading `python` tag |
| MetaAgent.ExhaustedMessageText | agents/meta_agent.py:77-82 | the exhausted message reads `Failed after 3 tries (guard): <msg>` or `… (sandbox): <msg>` |
| MetaAgent.CheckAttempt | agents/meta_agent.py:58-69 | one iteration's checks consult the guard exactly once; the sandbox runs only when the guard passed the code; the attempt passes exactly when the sandbox then succeeds, with its result; a rejection carries the `"; "`-joined guard issues or the sandbox's error |
| MetaAgent.Repair | agents/meta_agent.py:71-75 | building the repair prompt and generating from it moves the loop to the head of the next iteration, with the failure remembered |
| MetaAgent.TryGenerateAndExecuteLoop | agents/meta_agent.py:53-82 | the `for` loop with early return computes the same result and the same calls as the recursive definition of the run |
| RepairLoop.TraceSteps | agents/meta_agent.py:53-75 | the run starts with model call 0 on the original prompt and its reply; every later call follows from the one before it: model call `n`'s code goes to the guard in attempt `n + 1`, guard-passed code goes to the sandbox in the same attempt with the sandbox's outcome, and a failure in attempt `k` is followed by model call `k` on the repair prompt, with the model's reply to it as the code |
| RepairLoop.AttemptsSteps | agents/meta_agent.py:55-75 | from any attempt on, each call follows from the one before it in that sense, starting from the model call numbered one less than the attempt |
| RepairLoop.GuardAfterGeneration | agents/meta_agent.py:54-59 | every guard call checks the code of the model call just before it, in the attempt numbered one more than that call |
| RepairLoop.SandboxOnlyAfterGuard | agents/meta_agent.py:58-67 | the sandbox only runs code that the model generated two calls earlier and the guard passed just before in the same attempt, and its recorded outcome is the sandbox's answer for that attempt |
| RepairLoop.ExecutedCodeIsAccepted | agents/meta_agent.py:59-65 | with `validate_code` on the frame's columns as the guard, every snippet the sandbox runs parses and meets the guard's acceptance condition |
| RepairLoop.PromptsFromBase | agents/meta_agent.py:54-75 | the first prompt is the user's; every later prompt is the repair prompt for the original prompt and the failure just before it |
| RepairLoop.PromptsKeepBase | agents/meta_agent.py:53-75 | every prompt starts with the original prompt, so the full question is never lost; every prompt after the first follows a failing attempt and carries that attempt's code and its stripped failure message |
| RepairLoop.JudgeCounts | agents/meta_agent.py:58-69 | one attempt calls the guard once; it calls the sandbox once if the guard passes and never otherwise; it passes only guard-approved code |
| RepairLoop.AttemptsCounts | agents/meta_agent.py:55-75 | the call counts below, for the attempts from any attempt number on |
| RepairLoop.RunCounts | agents/meta_agent.py:53-82 | 1 to 3 guard calls; as many model calls as guard calls on success and one more on failure; at most one sandbox run per guard call and at least one on success; a failure uses all 3 attempts and 4 model calls |
| RepairLoop.AttemptsEnd | agents/meta_agent.py:55-82 | how the attempts from any attempt number on end: as for `RunEnds` below |
| RepairLoop.RunEnds | agents/meta_agent.py:53-82 | a success returns the sandbox's result for its code in the attempt whose guard call just passed it; a failure returns the model's reply to call number 3, which is the last call of the run and so never guarded or run, and reports the failure of attempt 3 just before it |
| CrossChecker.ResultBlock | agents/crosschecker.py:45-48 | the sandbox-result block is empty exactly when the snippet is; otherwise it starts with its heading and contains the snippet |
| CrossChecker.SnippetText | agents/crosschecker.py:73-74 | `result_snippet or ""` is empty exactly when the snippet is missing or empty |
| CrossChecker.BuildCrossPrompt | agents/crosschecker.py:21-71 | `build_cross_prompt`; what it contains is stated by `CrossChecker.CrossPromptEmbeds` and `CrossChecker.ResultBlockIff` |
| CrossChecker.CrossPromptEmbeds | agents/crosschecker.py:50-71 | the review prompt starts with the code-review instruction and contains the question, the dataset context and the code inside a `python` fence |
| CrossChecker.ResultBlockIff | agents/crosschecker.py:45-60 | a snippet lengthens the prompt by exactly its block, so the prompt differs from the snippet-free one exactly when the snippet is non-empty |
| CrossChecker.CleanReplyFacts | agents/crosschecker.py:76-84 | the cleaned reply has no surrounding whitespace; a fenced reply loses every fence; an unfenced one loses only a leading `json` tag |
| CrossChecker.Normalize | agents/crosschecker.py:93-98 | `valid` is true exactly when the dictionary has a truthy `valid` entry; `reason` and `fix_hint` are the given entries, or the empty string when missing |
| CrossChecker.NormalizeRoundTrip | agents/crosschecker.py:93-98 | normalising the returned dictionary gives the verdict back; a three-key dictionary with a boolean `valid` is returned unchanged |
| CrossChecker.CrossCheck | agents/crosschecker.py:73-98 | `cross_check`: prompt, model, clean-up, decode and normalise; its cases are stated by `CrossChecker.CrossCheckCases` |
| CrossChecker.CrossCheckCases | agents/crosschecker.py:73-98 | an undecodable reply gives `valid = false` with the fixed reason and an empty hint; an object reply gives its normalisation; any other decoded value stops the stage with that value, so the stage fails exactly when the reply decodes to a non-object; a verdict is valid exactly when the reply is an object with a truthy `valid` |
| CrossChecker.CrossCheckPassesThrough | agents/crosschecker.py:93-98 | for an object reply, `reason` and `fix_hint` are the object's own entries, passed through unchanged, or the empty string where it has none |

## Left out

- The language model client, `load_prompt`, `load_dotenv` and the `print` calls: these are I/O. The model and the loaded template are parameters.
- `run_in_repl` (sandbox.py): sandbox.py is not part of this model. Its outcome is a parameter, and the loop only tells success from an error message.
- `ast.parse`, `difflib.get_close_matches` and `json.loads` are foreign calls and are parameters:
  - `ast.parse` supplies the tree, or a fault carrying the message and line number;
  - `get_close_matches` supplies the suggestion list, of which only the first entry is used;
  - `json.loads` supplies a `Json` value, or `None` for a decode error.
- Guard.CheckColumns: Python enumerates the set of recorded columns in an unspecified order. The model uses first-occurrence order along the walk. The issue counts and kinds proved above do not depend on the order.
- Guard.IsDateLike: `\d` accepts every Unicode decimal digit, but the model accepts ASCII digits only.
- Text.StartsWithIgnoringCase lower-cases ASCII letters only. For the two tags used, `python` and `json`, the result is the same as `str.lower()`: no non-ASCII character lower-cases to one of their letters.
- `df_meta["columns"]` is modelled as a list of strings. Non-string column labels are not modelled.
- The tree covers Python 3.9 to 3.13, where a subscript's slice is the expression itself. Python 3.8 wraps it in `ast.Index`, so there the column check never fires. `ast.Str` and `ast.Constant` holding a string are both the model's `Constant(Str(..))`.
- Python 3.9 to 3.11: `ast.parse` raises `ValueError` rather than `SyntaxError` on code that contains a NUL character. guard.py:150-156 catches only `SyntaxError`, so `validate_code` raises and the repair loop stops. The parser here returns a tree or a `SyntaxFault` only, so this case is not modelled.
- Deep nesting: `SafeNodeVisitor` and `NameCollector` are recursive `ast.NodeVisitor`s (guard.py:161-162, 179). A tree nested about a thousand levels deep, such as `x = 1+1+…+1` with a thousand terms, raises `RecursionError`. The model's `Visit` and `PreOrder` are total and always return a result.
- Python 3.14 and later: `ast.Str` no longer exists there. guard.py:81 evaluates `(ast.Constant, ast.Str)` on every subscript of the bare name `df`, so `validate_code` raises `AttributeError` and the repair loop stops instead of receiving a verdict. The model follows 3.9 to 3.13 and does not model this crash.
- JSON numbers are modelled as reals. `NaN`, `Infinity` and `-Infinity`, which `json.loads` accepts, and the distinction between ints and floats are not represented. `valid` uses only the value's truthiness; `reason` and `fix_hint` pass the decoded value through as it is.
- CrossChecker.CrossCheck: a reply that decodes to a non-object makes `verdict.get` raise `AttributeError`. The model reports this as `Err(NotAnObject(..))` instead of raising.
- `repair_with_critic`, the critic-driven second retry budget: main.py imports it from agents/crosschecker.py, but it is not defined there, so there is nothing to model.

=== FILE: crosschecker.dfy ===
/** The critic stage: the review prompt sent to the model, and the clean-up of its reply
    into a verdict with exactly the keys `valid`, `reason` and `fix_hint`. The model and
    `json.loads` are parameters. */
module CrossChecker {
  import opened Options
  import opened Text
  import opened Fences

  /** A JSON value as `json.loads` returns it. */
  datatype Json =
    | JNull
    | JBool(b: bool)
    | JNumber(n: real)
    | JString(s: string)
    | JArray(items: seq<Json>)
    | JObject(fields: map<string, Json>)

  /** Python truthiness of a decoded value. */
  predicate Truthy(j: Json)
  {
    match j
    case JNull => false
    case JBool(b) => b
    case JNumber(n) => n != 0.0
    case JString(s) => s != ""
    case JArray(items) => items != []
    case JObject(fields) => fields != map[]
  }

  const CrossIntro: string := "You are a code-review assistant.\n\n## User question\n"
  const DatasetHeading: string := "\n\n## Dataset context\n"
  const CodeHeading: string := "\n\n## Candidate solution code\n"
  const ResultHeading: string := "\n## Sandbox result (truncated)\n"
  const TaskText: string :=
    "\n### Task\n"
    + "Evaluate whether the code, when executed on the full dataset, "
    + "correctly answers the user\U{2019}s question.\n\n"
    + "Respond **only** with a JSON object of the form:\n\n"
    + "{\n"
    + "  \"valid\": true | false,\n"
    + "  \"reason\": \"<one concise sentence>\",\n"
    + "  \"fix_hint\": \"<brief suggestion>\"\n"
    + "}\n\n"
    + "Do not output any additional text outside the JSON."

  /** The sandbox-result block: present exactly when there is a snippet to show. */
  function ResultBlock(snippet: string): (r: string)
    ensures r == "" <==> snippet == ""
    ensures snippet != "" ==> IsPrefix(ResultHeading, r) && HasInfix(r, snippet)
  {
    if snippet != "" then
      var r := ResultHeading + snippet + "\n";
      assert r[..|ResultHeading|] == ResultHeading;
      InfixOfConcat(ResultHeading, snippet, "\n");
      r
    else ""
  }

  /** `build_cross_prompt`. */
  function BuildCrossPrompt(query: string, datasetInfo: string, code: string, snippet: string): string
  {
    CrossIntro + query + DatasetHeading + datasetInfo + CodeHeading + FencedCode(code)
      + (ResultBlock(snippet) + TaskText)
  }

  /** The candidate code between a `python` fence line and a closing fence line. */
  function FencedCode(code: string): string
  {
    "```python\n" + code + "\n```\n"
  }

  /** `result_snippet or ""`: a missing snippet and an empty one both mean no block. */
  function SnippetText(snippet: Option<string>): (r: string)
    ensures r == "" <==> (snippet == None || snippet == Some(""))
    ensures snippet.Some? ==> r == snippet.value
  {
    match snippet
    case Some(s) => s
    case None => ""
  }

  /** The prompt `cross_check` sends. */
  function CrossPrompt(query: string, datasetInfo: string, code: string, snippet: Option<string>): string
  {
    BuildCrossPrompt(query, datasetInfo, code, SnippetText(snippet))
  }

  /** The prompt opens with the reviewer instruction and carries the question, the dataset
      context, and the code between a `python` fence line and a closing fence line. */
  lemma CrossPromptEmbeds(query: string, datasetInfo: string, code: string, snippet: string)
    ensures var r := BuildCrossPrompt(query, datasetInfo, code, snippet);
      && IsPrefix(CrossIntro, r)
      && HasInfix(r, query)
      && HasInfix(r, datasetInfo)
      && HasInfix(r, FencedCode(code))
  {
    Embeds(CrossIntro, query, DatasetHeading, datasetInfo, CodeHeading, FencedCode(code), ResultBlock(snippet) + TaskText);
  }

  /** The sandbox-result block adds exactly its own text, so the prompt differs from the
      one without a snippet if and only if the snippet is non-empty. */
  lemma ResultBlockIff(query: string, datasetInfo: string, code: string, snippet: string)
    ensures |BuildCrossPrompt(query, datasetInfo, code, snippet)|
         == |BuildCrossPrompt(query, datasetInfo, code, "")| + (if snippet == "" then 0 else |ResultHeading| + |snippet| + 1)
    ensures BuildCrossPrompt(query, datasetInfo, code, snippet) == BuildCrossPrompt(query, datasetInfo, code, "")
        <==> snippet == ""
  {
  }

  /** The reply clean-up: strip, drop a fence, drop a leading `json` tag. */
  function CleanReply(reply: string): string
  {
    Unfence(Strip(reply), "json")
  }

  /** The cleaned reply has no surrounding whitespace, and none of a fenced reply's fences. */
  lemma CleanReplyFacts(reply: string)
    ensures var text := Strip(reply);
      var r := CleanReply(reply);
      && Strip(r) == r
      && (IsPrefix(Fence, text) ==> !HasInfix(r, Fence))
      && (!IsPrefix(Fence, text) && !StartsWithIgnoringCase(text, "json") ==> r == text)
      && (!IsPrefix(Fence, text) && StartsWithIgnoringCase(text, "json") ==> r == Strip(text[|"json"|..]))
  {
    UnfenceStrippedFacts(reply, "json");
  }

  /** The normalised verdict `cross_check` returns. */
  datatype CriticVerdict = CriticVerdict(valid: bool, reason: Json, fixHint: Json)

  const ValidKey: string := "valid"
  const ReasonKey: string := "reason"
  const FixHintKey: string := "fix_hint"
  const NotJsonReason: string := "LLM reply not valid JSON"

  /** `d.get(key, default)`. */
  function Get(fields: map<string, Json>, key: string, default: Json): Json
  {
    if key in fields then fields[key] else default
  }

  /** The dictionary used when the reply does not decode. */
  function Fallback(): (r: map<string, Json>)
    ensures r.Keys == {ValidKey, ReasonKey, FixHintKey}
    ensures r[ValidKey] == JBool(false) && r[ReasonKey] == JString(NotJsonReason) && r[FixHintKey] == JString("")
  {
    map[ValidKey := JBool(false), ReasonKey := JString(NotJsonReason), FixHintKey := JString("")]
  }

  /** Key normalisation: `valid` as a bool (false when missing), `reason` and `fix_hint`
      as given, or the empty string when missing. */
  function Normalize(fields: map<string, Json>): (r: CriticVerdict)
    ensures r.valid <==> ValidKey in fields && Truthy(fields[ValidKey])
    ensures ReasonKey in fields ==> r.reason == fields[ReasonKey]
    ensures ReasonKey !in fields ==> r.reason == JString("")
    ensures FixHintKey in fields ==> r.fixHint == fields[FixHintKey]
    ensures FixHintKey !in fields ==> r.fixHint == JString("")
  {
    CriticVerdict(Truthy(Get(fields, ValidKey, JNull)), Get(fields, ReasonKey, JString("")), Get(fields, FixHintKey, JString("")))
  }

  /** A verdict as the three-key dictionary it is returned as. */
  function AsDict(v: CriticVerdict): (r: map<string, Json>)
    ensures r.Keys == {ValidKey, ReasonKey, FixHintKey}
  {
    map[ValidKey := JBool(v.valid), ReasonKey := v.reason, FixHintKey := v.fixHint]
  }

  /** Normalising the returned dictionary gives the verdict back, and a dictionary that
      already has exactly the three keys with a boolean `valid` is returned unchanged. */
  lemma NormalizeRoundTrip(v: CriticVerdict, fields: map<string, Json>)
    ensures Normalize(AsDict(v)) == v
    ensures fields.Keys == {ValidKey, ReasonKey, FixHintKey} && fields[ValidKey].JBool?
        ==> AsDict(Normalize(fields)) == fields
  {
    if fields.Keys == {ValidKey, ReasonKey, FixHintKey} && fields[ValidKey].JBool? {
      var d := AsDict(Normalize(fields));
      assert d.Keys == fields.Keys;
      assert forall k | k in d :: d[k] == fields[k];
    }
  }

  /** Why the critic stage can stop without a verdict: the reply decoded to a JSON value
      that is not an object, on which `.get` fails. */
  datatype CrossFault = NotAnObject(value: Json)

  /** `cross_check`: the model's reply to the review prompt, cleaned, decoded and
      normalised. `decode` is `json.loads`, with `None` for a `JSONDecodeError`. */
  function CrossCheck(query: string, datasetInfo: string, code: string, snippet: Option<string>,
                      llm: string -> string, decode: string -> Option<Json>): Result<CriticVerdict, CrossFault>
  {
    var text := CleanReply(llm(CrossPrompt(query, datasetInfo, code, snippet)));
    match decode(text)
    case None => Ok(Normalize(Fallback()))
    case Some(JObject(fields)) => Ok(Normalize(fields))
    case Some(other) => Err(NotAnObject(other))
  }

  /** The cases of the critic stage: an undecodable reply is a rejection with the fixed
      reason; an object is normalised; anything else stops the stage with that value. A
      verdict is valid only when the reply decoded to an object whose `valid` entry is truthy. */
  lemma CrossCheckCases(query: string, datasetInfo: string, code: string, snippet: Option<string>,
                        llm: string -> string, decode: string -> Option<Json>)
    ensures var text := CleanReply(llm(CrossPrompt(query, datasetInfo, code, snippet)));
      var r := CrossCheck(query, datasetInfo, code, snippet, llm, decode);
      && (decode(text).None? ==> r == Ok(CriticVerdict(false, JString(NotJsonReason), JString(""))))
      && (r.Err? <==> decode(text).Some? && !decode(text).value.JObject?)
      && (r.Ok? && r.value.valid <==>
            decode(text).Some? && decode(text).value.JObject?
            && ValidKey in decode(text).value.fields && Truthy(decode(text).value.fields[ValidKey]))
      && (decode(text).Some? && decode(text).value.JObject? ==> r == Ok(Normalize(decode(text).value.fields)))
      && (decode(text).Some? && !decode(text).value.JObject? ==> r == Err(NotAnObject(decode(text).value)))
  {
  }

  /** For a reply that decodes to an object, `reason` and `fix_hint` are the object's own
      entries, or the empty string where the object has none. */
  lemma CrossCheckPassesThrough(query: string, datasetInfo: string, code: string, snippet: Option<string>,
                                llm: string -> string, decode: string -> Option<Json>)
    ensures var text := CleanReply(llm(CrossPrompt(query, datasetInfo, code, snippet)));
      var r := CrossCheck(query, datasetInfo, code, snippet, llm, decode);
      decode(text).Some? && decode(text).value.JObject? ==>
        var fields := decode(text).value.fields;
        && r.Ok?
        && r.value.reason == (if ReasonKey in fields then fields[ReasonKey] else JString(""))
        && r.value.fixHint == (if FixHintKey in fields then fields[FixHintKey] else JString(""))
  {
    CrossCheckCases(query, datasetInfo, code, snippet, llm, decode);
  }
}

=== FILE: fences.dfy ===
/** The clean-up applied to a language model's reply before it is used: the
    text between the first two code fences is kept, then a leading language
    tag (`python` for generated code, `json` for the critic's verdict) is
    dropped. Both callers share this one definition. */
module Fences {
  import opened Text

  const Fence: string := "```"

  /** A code fence starts at position `k` of `s`. */
  predicate FenceAt(s: string, k: int)
  {
    OccursAt(s, Fence, k)
  }

  /** The text of `s` before its first fence (all of `s` when it has none): the
      first piece of `s.split("```")`. */
  function UpToFence(s: string): (r: string)
    ensures |r| <= |s| && r == s[..|r|]
    ensures forall k :: 0 <= k < |r| ==> !FenceAt(s, k)
    ensures r == s || FenceAt(s, |r|)
    decreases |s|
  {
    if s == [] || FenceAt(s, 0) then []
    else
      var rest := UpToFence(s[1..]);
      forall k | 1 <= k <= |rest| + 1
        ensures FenceAt(s, k) <==> FenceAt(s[1..], k - 1)
      {
        if k + |Fence| <= |s| {
          assert s[k..k + |Fence|] == s[1..][k - 1..k - 1 + |Fence|];
        }
      }
      [s[0]] + rest
  }

  /** The three facts `UpToFence` ensures pin its result down: no other prefix has them. */
  lemma UpToFenceUnique(s: string, p: string)
    requires |p| <= |s| && p == s[..|p|]
    requires forall k :: 0 <= k < |p| ==> !FenceAt(s, k)
    requires p == s || FenceAt(s, |p|)
    ensures p == UpToFence(s)
  {
    var r := UpToFence(s);
    assert |p| < |r| ==> !FenceAt(s, |p|);
    assert |r| < |p| ==> !FenceAt(s, |r|);
    assert |p| == |r|;
  }

  /** The text before the first fence contains no fence. */
  lemma UpToFenceHasNoFence(s: string)
    ensures !HasInfix(UpToFence(s), Fence)
  {
    var r := UpToFence(s);
    forall k | 0 <= k && k + |Fence| <= |r|
      ensures !OccursAt(r, Fence, k)
    {
      assert r[k..k + |Fence|] == s[k..k + |Fence|];
      assert !FenceAt(s, k);
    }
    NotInfix(r, Fence);
  }

  /** `text.split("```")[1]` for a text that starts with a fence: the segment between the
      opening fence and the next one (or the end of the text). */
  function FencedSegment(text: string): string
    requires IsPrefix(Fence, text)
  {
    UpToFence(text[|Fence|..])
  }

  /** The segment follows the opening fence, no fence starts inside it (so it runs to the
      first fence after the opening one, or to the end of the text), and it holds no fence. */
  lemma FencedSegmentFacts(text: string)
    requires IsPrefix(Fence, text)
    ensures var r := FencedSegment(text);
      && IsPrefix(Fence + r, text)
      && (forall k :: |Fence| <= k < |Fence| + |r| ==> !FenceAt(text, k))
      && !HasInfix(r, Fence)
      && (Fence + r == text || IsPrefix(Fence + r + Fence, text))
  {
    var rest := text[|Fence|..];
    var r := UpToFence(rest);
    UpToFenceHasNoFence(rest);
    NoEarlierFence(text);
    assert text == Fence + rest;
    if r != rest {
      assert rest[|r|..|r| + |Fence|] == Fence;
      assert (Fence + r + Fence) == text[..|Fence| + |r| + |Fence|];
    } else {
      assert Fence + r == text;
    }
  }

  lemma NoEarlierFence(text: string)
    requires IsPrefix(Fence, text)
    ensures forall k :: |Fence| <= k < |Fence| + |FencedSegment(text)| ==> !FenceAt(text, k)
  {
    var rest := text[|Fence|..];
    var r := UpToFence(rest);
    assert FencedSegment(text) == r;
    forall k | |Fence| <= k < |Fence| + |r|
      ensures !FenceAt(text, k)
    {
      assert !FenceAt(rest, k - |Fence|);
      if k + |Fence| <= |text| {
        assert text[k..k + |Fence|] == rest[k - |Fence|..k - |Fence| + |Fence|];
      }
    }
  }

  /** Drops a leading `tag` compared ignoring case (`s.lower().startswith(tag)`), then strips. */
  function DropTag(s: string, tag: string): string
  {
    if StartsWithIgnoringCase(s, tag) then Strip(s[|tag|..]) else s
  }

  /** The text the fence phase keeps: the stripped segment of a fenced reply, or the reply. */
  function FencePhase(text: string): string
  {
    if IsPrefix(Fence, text) then Strip(FencedSegment(text)) else text
  }

  /** The reply clean-up: for a reply that opens with a fence, keep the stripped segment
      after it; then drop a leading `tag`. The text is expected already stripped. */
  function Unfence(text: string, tag: string): string
  {
    DropTag(FencePhase(text), tag)
  }

  /** A fenced reply loses every fence; an unfenced one is only stripped of its tag. */
  lemma UnfenceFacts(text: string, tag: string)
    ensures IsPrefix(Fence, text) ==> !HasInfix(Unfence(text, tag), Fence)
    ensures !IsPrefix(Fence, text) && !StartsWithIgnoringCase(text, tag) ==> Unfence(text, tag) == text
    ensures !IsPrefix(Fence, text) && StartsWithIgnoringCase(text, tag) ==> Unfence(text, tag) == Strip(text[|tag|..])
  {
    if IsPrefix(Fence, text) {
      UnfenceFenced(text, tag);
    }
  }

  lemma UnfenceFenced(text: string, tag: string)
    requires IsPrefix(Fence, text)
    ensures !HasInfix(Unfence(text, tag), Fence)
  {
    FencedSegmentFacts(text);
    var body := Strip(FencedSegment(text));
    assert FencePhase(text) == body;
    NoFenceInStrip(FencedSegment(text));
    if StartsWithIgnoringCase(body, tag) {
      NoFenceInSlice(body, |tag|, |body|);
      assert body[|tag|..|body|] == body[|tag|..];
      NoFenceInStrip(body[|tag|..]);
      assert DropTag(body, tag) == Strip(body[|tag|..]);
    } else {
      assert DropTag(body, tag) == body;
    }
  }

  /** The clean-up of a raw reply: the result has no surrounding whitespace; a reply that
      opens with a fence loses every fence; an unfenced one loses only its tag. */
  lemma UnfenceStrippedFacts(raw: string, tag: string)
    ensures var text := Strip(raw);
      var r := Unfence(text, tag);
      && Strip(r) == r
      && (IsPrefix(Fence, text) ==> !HasInfix(r, Fence))
      && (!IsPrefix(Fence, text) && !StartsWithIgnoringCase(text, tag) ==> r == text)
      && (!IsPrefix(Fence, text) && StartsWithIgnoringCase(text, tag) ==> r == Strip(text[|tag|..]))
  {
    var text := Strip(raw);
    UnfenceFacts(text, tag);
    StripIdempotent(raw);
    if IsPrefix(Fence, text) {
      StripIdempotent(FencedSegment(text));
    }
    var kept := FencePhase(text);
    if StartsWithIgnoringCase(kept, tag) {
      StripIdempotent(kept[|tag|..]);
    }
  }

  lemma NoFenceInSlice(s: string, i: nat, j: nat)
    requires i <= j <= |s| && !HasInfix(s, Fence)
    ensures !HasInfix(s[i..j], Fence)
  {
    if HasInfix(s[i..j], Fence) {
      InfixOfSlice(s, i, j, Fence);
    }
  }

  lemma NoFenceInStrip(s: string)
    requires !HasInfix(s, Fence)
    ensures !HasInfix(Strip(s), Fence)
  {
    var i, j := StripIsSlice(s);
    NoFenceInSlice(s, i, j);
  }

  /** The tag is dropped even when it only begins an identifier. */
  lemma TagPrefixOfIdentifierExample()
    ensures Unfence("pythonic = 1", "python") == "ic = 1"
  {
    var text := "pythonic = 1";
    assert !IsPrefix(Fence, text) by {
      assert text[0] != Fence[0];
    }
    assert FencePhase(text) == text;
    assert StartsWithIgnoringCase(text, "python");
    assert text[6..] == "ic = 1";
    StripTrimmed("ic = 1");
  }
}

=== FILE: guard.dfy ===
/** The static guard: a parse gate, one safety walk over the tree that also
    collects `df["<field>"]` references, a check of those references against
    the known columns, and a check that every name read is allowed. */
module Guard {
  import opened Options
  import opened Text
  import opened Seqs
  import opened PyAst

  /** Names a snippet may read without complaint: the frame and three library aliases. */
  const BaseAllowedNames: set<string> := {"df", "pd", "np", "plt"}

  /** Roots of attribute chains that point at the file system, processes, the
      network or Python's internals. A root is refused when it starts with one. */
  const DisallowedAttrPrefixes: seq<string> :=
    ["os", "sys", "subprocess", "shutil", "socket", "pathlib", "builtins", "open", "eval", "exec", "__"]

  /** Names that may not be called directly. */
  const DisallowedCalls: set<string> := {"eval", "exec", "__import__"}

  // ---------------------------------------------------------------------------
  // Issue messages
  // ---------------------------------------------------------------------------

  const ImportIssue: string := "Import statements are not allowed"

  function CallIssue(callee: string): string
  {
    "Disallowed call to " + callee + "()"
  }

  function AttributeIssue(root: string): string
  {
    "Disallowed attribute access '" + root + ".*'"
  }

  /** The issue for an unknown column: it names the column and, when the matcher found a
      close known column, asks whether that one was meant. */
  function UnknownColumnIssue(column: string, suggestions: seq<string>): (r: string)
    ensures |suggestions| == 0 ==> r == "Unknown column '" + column + "'."
    ensures |suggestions| > 0 ==> r == "Unknown column '" + column + "'. Did you mean '" + suggestions[0] + "'?"
  {
    var head := "Unknown column '" + column + "'.";
    if |suggestions| > 0 then head + " Did you mean '" + suggestions[0] + "'?" else head
  }

  /** Every unknown-column issue starts by naming the column, and ends in `?` exactly when
      it carries a suggestion. */
  lemma UnknownColumnIssueShape(column: string, suggestions: seq<string>)
    ensures var r := UnknownColumnIssue(column, suggestions);
      && IsPrefix("Unknown column '" + column + "'.", r)
      && (r[|r| - 1] == '?' <==> |suggestions| > 0)
  {
    var opening := "Unknown column '" + column;
    var head := opening + "'.";
    var r := UnknownColumnIssue(column, suggestions);
    if |suggestions| > 0 {
      var tail := " Did you mean '" + suggestions[0] + "'?";
      assert r == head + tail;
      assert r[..|head|] == head;
      assert r[|r| - 1] == tail[|tail| - 1] == '?';
    } else {
      assert r == head;
      assert r[..|head|] == head;
      assert r[|r| - 1] == head[|opening| + 1] == '.';
    }
  }

  function UnknownNameIssue(id: string): string
  {
    "Use of unknown variable '" + id + "'"
  }

  /** What the parser reports for unparsable code: a message and, when known, a line. */
  datatype SyntaxFault = SyntaxFault(msg: string, line: Option<nat>)

  /** `str(lineno)`, where a missing line number prints as `None`. */
  function LineText(line: Option<nat>): string
  {
    match line
    case Some(n) => NatToString(n)
    case None => "None"
  }

  function SyntaxIssue(fault: SyntaxFault): string
  {
    "SyntaxError: " + fault.msg + " (line " + LineText(fault.line) + ")"
  }

  // ---------------------------------------------------------------------------
  // The safety walk
  // ---------------------------------------------------------------------------

  predicate HasDisallowedPrefix(root: string)
  {
    exists i :: 0 <= i < |DisallowedAttrPrefixes| && IsPrefix(DisallowedAttrPrefixes[i], root)
  }

  /** `_root_name`: the leftmost name of an attribute chain, or `None` when the chain
      starts at something that is not a name (a call, a subscript, a literal). */
  function RootName(n: Node): Option<string>
  {
    match n
    case Attribute(v, _) => RootName(v)
    case Name(id, _) => Some(id)
    case _ => None
  }

  /** `_root_name` as written: follow `.value` while the node is an attribute. */
  method RootNameLoop(node: Node) returns (root: Option<string>)
    ensures root == RootName(node)
  {
    var current := node;
    while current.Attribute?
      invariant RootName(current) == RootName(node)
      decreases current
    {
      current := current.value;
    }
    root := if current.Name? then Some(current.id) else None;
  }

  predicate IsImport(n: Node)
  {
    n.Import? || n.ImportFrom?
  }

  /** A call whose callee is the bare name `callee`. */
  predicate IsCallTo(n: Node, callee: string)
  {
    n.Call? && n.func.Name? && n.func.id == callee
  }

  predicate IsDisallowedCall(n: Node)
  {
    n.Call? && n.func.Name? && n.func.id in DisallowedCalls
  }

  /** An attribute node whose chain is rooted at the name `root`. */
  predicate IsAttributeRootedAt(n: Node, root: string)
  {
    n.Attribute? && RootName(n) == Some(root)
  }

  predicate IsDisallowedRoot(root: string)
  {
    root != "" && HasDisallowedPrefix(root)
  }

  predicate IsDisallowedAttribute(n: Node)
  {
    n.Attribute? && RootName(n).Some? && IsDisallowedRoot(RootName(n).value)
  }

  /** A node the safety walk reports. */
  predicate IsFlagged(n: Node)
  {
    IsImport(n) || IsDisallowedCall(n) || IsDisallowedAttribute(n)
  }

  /** The errors the handler for node `n` appends on its own, before visiting children. */
  function NodeErrors(n: Node): seq<string>
  {
    match n
    case Import => [ImportIssue]
    case ImportFrom => [ImportIssue]
    case Call(f, _) => if f.Name? && f.id in DisallowedCalls then [CallIssue(f.id)] else []
    case Attribute(_, _) =>
      var root := RootName(n);
      if root.Some? && IsDisallowedRoot(root.value) then [AttributeIssue(root.value)] else []
    case _ => []
  }

  /** `df.__getitem__` dates: `YYYY-MM` or `YYYY-MM-DD` in ASCII digits. */
  predicate IsDateText(s: string)
  {
    && (|s| == 7 || |s| == 10)
    && IsDigit(s[0]) && IsDigit(s[1]) && IsDigit(s[2]) && IsDigit(s[3])
    && s[4] == '-' && IsDigit(s[5]) && IsDigit(s[6])
    && (|s| == 10 ==> s[7] == '-' && IsDigit(s[8]) && IsDigit(s[9]))
  }

  /** A match of `^\d{4}-\d{2}(-\d{2})?$`, whose `$` also accepts one final newline. */
  predicate IsDateLike(s: string)
  {
    IsDateText(s) || (|s| > 0 && s[|s| - 1] == '\n' && IsDateText(s[..|s| - 1]))
  }

  /** The column a subscript node records: `df[<string constant>]` whose string is not
      date-like. */
  function ColumnOf(n: Node): Option<string>
  {
    if n.Subscript? && n.value.Name? && n.value.id == "df" && n.slice.Constant? && n.slice.lit.Str?
       && !IsDateLike(n.slice.lit.s)
    then Some(n.slice.lit.s)
    else None
  }

  function NodeColumns(n: Node): seq<string>
  {
    match ColumnOf(n)
    case Some(c) => [c]
    case None => []
  }

  /** What `SafeNodeVisitor` accumulates: errors in order and recorded columns in order. */
  datatype Walk = Walk(errors: seq<string>, columns: seq<string>)
  {
    function Then(next: Walk): Walk
    {
      Walk(errors + next.errors, columns + next.columns)
    }
  }

  /** `SafeNodeVisitor.visit`: each handler's own check, then the children it visits. */
  function Visit(n: Node): Walk
    decreases n
  {
    match n
    case Import => Walk(NodeErrors(n), [])
    case ImportFrom => Walk(NodeErrors(n), [])
    case Call(f, args) => Walk(NodeErrors(n), []).Then(Visit(f)).Then(VisitAll(args))
    case Attribute(v, _) => Walk(NodeErrors(n), []).Then(Visit(v))
    case Subscript(v, s) => Walk([], NodeColumns(n)).Then(Visit(v)).Then(Visit(s))
    case Name(_, _) => Walk([], [])
    case Constant(_) => Walk([], [])
    case Other(cs) => VisitAll(cs)
  }

  function VisitAll(ns: seq<Node>): Walk
    decreases ns
  {
    if ns == [] then Walk([], []) else Visit(ns[0]).Then(VisitAll(ns[1..]))
  }

  /** `visitor.columns`: the set of recorded columns. */
  function RecordedColumns(tree: Node): set<string>
  {
    set c | c in Visit(tree).columns
  }

  // ---------------------------------------------------------------------------
  // Column check
  // ---------------------------------------------------------------------------

  /** The columns of `used` missing from `known`, in order. */
  function UnknownColumns(used: seq<string>, known: set<string>): (r: seq<string>)
    ensures forall c :: c in r <==> c in used && c !in known
    ensures NoDuplicates(used) ==> NoDuplicates(r)
  {
    if used == [] then []
    else
      var rest := UnknownColumns(used[1..], known);
      assert forall c :: c in used <==> c == used[0] || c in used[1..];
      if used[0] in known then rest else [used[0]] + rest
  }

  /** `_check_columns`: one issue per used column that is not known, in the order the
      columns are enumerated, each with the matcher's first suggestion if it has one. */
  function CheckColumns(used: seq<string>, known: set<string>,
                        closeMatches: (string, set<string>) -> seq<string>): (issues: seq<string>)
    ensures var unknown := UnknownColumns(used, known);
      && |issues| == |unknown|
      && forall i :: 0 <= i < |issues| ==>
           issues[i] == UnknownColumnIssue(unknown[i], closeMatches(unknown[i], known))
  {
    if used == [] then []
    else
      var rest := CheckColumns(used[1..], known, closeMatches);
      if used[0] in known then rest
      else [UnknownColumnIssue(used[0], closeMatches(used[0], known))] + rest
  }

  // ---------------------------------------------------------------------------
  // Name check
  // ---------------------------------------------------------------------------

  /** A name read (not assigned or deleted). */
  predicate IsLoadedName(n: Node)
  {
    n.Name? && n.ctx == Load
  }

  /** `NameCollector.visit_Name`: the issue a single node adds. */
  function NameIssue(n: Node, allowed: set<string>, columns: set<string>): seq<string>
  {
    if IsLoadedName(n) && n.id !in allowed && n.id !in columns then [UnknownNameIssue(n.id)] else []
  }

  function NameIssueOf(allowed: set<string>, columns: set<string>): Node -> seq<string>
  {
    (n: Node) => NameIssue(n, allowed, columns)
  }

  /** `NameCollector().visit(tree)`: it visits every node, in pre-order. */
  function NameIssues(tree: Node, allowed: set<string>, columns: set<string>): seq<string>
  {
    FlatMap(NameIssueOf(allowed, columns), PreOrder(tree))
  }

  // ---------------------------------------------------------------------------
  // validate_code
  // ---------------------------------------------------------------------------

  /** `df_meta`: its `columns` entry, when present. */
  datatype DfMeta = DfMeta(columns: Option<seq<string>>)

  /** `set(df_meta.get("columns", []))`. */
  function KnownColumns(meta: DfMeta): set<string>
  {
    match meta.columns
    case Some(cs) => set c | c in cs
    case None => {}
  }

  /** `_BASE_ALLOWED_NAMES | (allowed_names or set())`. */
  function AllowedNames(extra: Option<set<string>>): set<string>
  {
    BaseAllowedNames + (match extra case Some(e) => e case None => {})
  }

  datatype Verdict = Verdict(ok: bool, issues: seq<string>)

  /** `validate_code` on the parser's outcome for the snippet. */
  function ValidateCode(parsed: Result<Node, SyntaxFault>, meta: DfMeta, allowedNames: Option<set<string>>,
                        closeMatches: (string, set<string>) -> seq<string>): (v: Verdict)
    ensures v.ok <==> v.issues == []
    ensures parsed.Err? ==> v == Verdict(false, [SyntaxIssue(parsed.error)])
  {
    match parsed
    case Err(fault) => Verdict(false, [SyntaxIssue(fault)])
    case Ok(tree) =>
      var walk := Visit(tree);
      var issues := walk.errors
        + CheckColumns(Dedup(walk.columns), KnownColumns(meta), closeMatches)
        + NameIssues(tree, AllowedNames(allowedNames), RecordedColumns(tree));
      Verdict(issues == [], issues)
  }
}

=== FILE: guard_lemmas.dfy ===
/** What the guard promises, stated over the pre-order list of the tree's nodes. */
module GuardLemmas {
  import opened Options
  import opened Text
  import opened Seqs
  import opened PyAst
  import opened Guard

  // ---------------------------------------------------------------------------
  // The walk is a pre-order traversal
  // ---------------------------------------------------------------------------

  function Errors(ns: seq<Node>): seq<string>
  {
    FlatMap(NodeErrors, ns)
  }

  function Columns(ns: seq<Node>): seq<string>
  {
    FlatMap(NodeColumns, ns)
  }

  /** The visitor's errors and columns are those of each node, taken in pre-order. */
  lemma {:induction false} VisitIsPreOrder(n: Node)
    ensures Visit(n) == Walk(Errors(PreOrder(n)), Columns(PreOrder(n)))
    decreases n
  {
    match n
    case Call(f, args) =>
      VisitIsPreOrder(f);
      VisitAllIsPreOrder(args);
      FlatMapConcat(NodeErrors, [n] + PreOrder(f), PreOrderAll(args));
      FlatMapConcat(NodeErrors, [n], PreOrder(f));
      FlatMapConcat(NodeColumns, [n] + PreOrder(f), PreOrderAll(args));
      FlatMapConcat(NodeColumns, [n], PreOrder(f));
    case Attribute(v, _) =>
      VisitIsPreOrder(v);
      FlatMapConcat(NodeErrors, [n], PreOrder(v));
      FlatMapConcat(NodeColumns, [n], PreOrder(v));
    case Subscript(v, s) =>
      VisitIsPreOrder(v);
      VisitIsPreOrder(s);
      FlatMapConcat(NodeErrors, [n] + PreOrder(v), PreOrder(s));
      FlatMapConcat(NodeErrors, [n], PreOrder(v));
      FlatMapConcat(NodeColumns, [n] + PreOrder(v), PreOrder(s));
      FlatMapConcat(NodeColumns, [n], PreOrder(v));
    case Other(cs) =>
      VisitAllIsPreOrder(cs);
      FlatMapConcat(NodeErrors, [n], PreOrderAll(cs));
      FlatMapConcat(NodeColumns, [n], PreOrderAll(cs));
    case _ =>
      FlatMapSingleton(NodeErrors, n);
      FlatMapSingleton(NodeColumns, n);
  }

  lemma {:induction false} VisitAllIsPreOrder(ns: seq<Node>)
    ensures VisitAll(ns) == Walk(Errors(PreOrderAll(ns)), Columns(PreOrderAll(ns)))
    decreases ns
  {
    if ns != [] {
      VisitIsPreOrder(ns[0]);
      VisitAllIsPreOrder(ns[1..]);
      FlatMapConcat(NodeErrors, PreOrder(ns[0]), PreOrderAll(ns[1..]));
      FlatMapConcat(NodeColumns, PreOrder(ns[0]), PreOrderAll(ns[1..]));
    }
  }

  // ---------------------------------------------------------------------------
  // Issue messages are told apart by their text
  // ---------------------------------------------------------------------------

  lemma CallIssueInjective(a: string, b: string)
    ensures CallIssue(a) == CallIssue(b) ==> a == b
  {
    if CallIssue(a) == CallIssue(b) {
      assert a == CallIssue(a)[19..|CallIssue(a)| - 2];
      assert b == CallIssue(b)[19..|CallIssue(b)| - 2];
    }
  }

  lemma AttributeIssueInjective(a: string, b: string)
    ensures AttributeIssue(a) == AttributeIssue(b) ==> a == b
  {
    if AttributeIssue(a) == AttributeIssue(b) {
      assert a == AttributeIssue(a)[29..|AttributeIssue(a)| - 3];
      assert b == AttributeIssue(b)[29..|AttributeIssue(b)| - 3];
    }
  }

  lemma UnknownNameIssueInjective(a: string, b: string)
    ensures UnknownNameIssue(a) == UnknownNameIssue(b) ==> a == b
  {
    if UnknownNameIssue(a) == UnknownNameIssue(b) {
      assert a == UnknownNameIssue(a)[25..|UnknownNameIssue(a)| - 1];
      assert b == UnknownNameIssue(b)[25..|UnknownNameIssue(b)| - 1];
    }
  }

  /** The three kinds of safety message never coincide. */
  lemma SafetyIssuesDistinct(callee: string, root: string)
    ensures ImportIssue != CallIssue(callee)
    ensures ImportIssue != AttributeIssue(root)
    ensures CallIssue(callee) != AttributeIssue(root)
  {
    assert ImportIssue[0] == 'I';
    assert CallIssue(callee)[0] == 'D' && CallIssue(callee)[11] == 'c';
    assert AttributeIssue(root)[0] == 'D' && AttributeIssue(root)[11] == 'a';
  }

  // ---------------------------------------------------------------------------
  // The safety walk
  // ---------------------------------------------------------------------------

  /** `_root_name` sees through any number of attribute accesses. */
  lemma {:induction false} RootOfChain(base: Node, attrs: seq<string>)
    ensures RootName(Chain(base, attrs)) == RootName(base)
    decreases |attrs|
  {
    if attrs != [] {
      RootOfChain(base, attrs[..|attrs| - 1]);
    }
  }

  /** A node adds one safety error if it is flagged and none otherwise. */
  lemma NodeErrorsOfFlagged(n: Node)
    ensures |NodeErrors(n)| == (if IsFlagged(n) then 1 else 0)
  {
  }

  /** The safety walk reports exactly one error per flagged node, and so none at all
      exactly when no node is flagged. */
  lemma SafetyErrorCount(tree: Node)
    ensures |Visit(tree).errors| == Count(IsFlagged, PreOrder(tree))
    ensures Visit(tree).errors == [] <==> forall i :: 0 <= i < |PreOrder(tree)| ==> !IsFlagged(PreOrder(tree)[i])
  {
    var ns := PreOrder(tree);
    VisitIsPreOrder(tree);
    forall i | 0 <= i < |ns|
      ensures |NodeErrors(ns[i])| == (if IsFlagged(ns[i]) then 1 else 0)
    {
      NodeErrorsOfFlagged(ns[i]);
    }
    FlatMapLength(NodeErrors, IsFlagged, ns);
    CountZero(IsFlagged, ns);
  }

  /** Every `Import` and `ImportFrom` node adds one import message, and nothing else does. */
  lemma ImportIssueCount(tree: Node)
    ensures multiset(Visit(tree).errors)[ImportIssue] == Count(IsImport, PreOrder(tree))
  {
    var ns := PreOrder(tree);
    VisitIsPreOrder(tree);
    forall i | 0 <= i < |ns|
      ensures multiset(NodeErrors(ns[i]))[ImportIssue] == (if IsImport(ns[i]) then 1 else 0)
    {
      ImportIssueOfNode(ns[i]);
    }
    FlatMapMultiplicity(NodeErrors, ns, ImportIssue);
    OccurrencesCount(NodeErrors, IsImport, ns, ImportIssue);
  }

  lemma ImportIssueOfNode(n: Node)
    ensures multiset(NodeErrors(n))[ImportIssue] == (if IsImport(n) then 1 else 0)
  {
    if n.Call? && n.func.Name? {
      SafetyIssuesDistinct(n.func.id, "");
    }
    if n.Attribute? && RootName(n).Some? {
      SafetyIssuesDistinct("", RootName(n).value);
    }
  }

  function CallsTo(callee: string): Node -> bool
  {
    (n: Node) => IsCallTo(n, callee)
  }

  /** "Disallowed call to X()" appears once per call whose callee is the bare name X,
      when X is `eval`, `exec` or `__import__`, and never for any other X. */
  lemma CallIssueCount(tree: Node, callee: string)
    ensures multiset(Visit(tree).errors)[CallIssue(callee)]
         == if callee in DisallowedCalls then Count(CallsTo(callee), PreOrder(tree)) else 0
  {
    var ns := PreOrder(tree);
    var p := (n: Node) => callee in DisallowedCalls && IsCallTo(n, callee);
    VisitIsPreOrder(tree);
    forall i | 0 <= i < |ns|
      ensures multiset(NodeErrors(ns[i]))[CallIssue(callee)] == (if p(ns[i]) then 1 else 0)
    {
      var n := ns[i];
      SafetyIssuesDistinct(callee, "");
      if n.Call? && n.func.Name? {
        CallIssueInjective(n.func.id, callee);
      }
      if n.Attribute? && RootName(n).Some? {
        SafetyIssuesDistinct(callee, RootName(n).value);
      }
    }
    FlatMapMultiplicity(NodeErrors, ns, CallIssue(callee));
    OccurrencesCount(NodeErrors, p, ns, CallIssue(callee));
    if callee in DisallowedCalls {
      CountSame(p, CallsTo(callee), ns);
    } else {
      CountZero(p, ns);
    }
  }

  function RootedAt(root: string): Node -> bool
  {
    (n: Node) => IsAttributeRootedAt(n, root)
  }

  /** "Disallowed attribute access 'R.*'" appears once per attribute node whose chain is
      rooted at R, when R starts with a denied prefix, and never otherwise. */
  lemma AttributeIssueCount(tree: Node, root: string)
    ensures multiset(Visit(tree).errors)[AttributeIssue(root)]
         == if IsDisallowedRoot(root) then Count(RootedAt(root), PreOrder(tree)) else 0
  {
    var ns := PreOrder(tree);
    var p := (n: Node) => IsDisallowedRoot(root) && IsAttributeRootedAt(n, root);
    VisitIsPreOrder(tree);
    forall i | 0 <= i < |ns|
      ensures multiset(NodeErrors(ns[i]))[AttributeIssue(root)] == (if p(ns[i]) then 1 else 0)
    {
      var n := ns[i];
      SafetyIssuesDistinct("", root);
      if n.Call? && n.func.Name? {
        SafetyIssuesDistinct(n.func.id, root);
      }
      if n.Attribute? && RootName(n).Some? {
        AttributeIssueInjective(RootName(n).value, root);
      }
    }
    FlatMapMultiplicity(NodeErrors, ns, AttributeIssue(root));
    OccurrencesCount(NodeErrors, p, ns, AttributeIssue(root));
    if IsDisallowedRoot(root) {
      CountSame(p, RootedAt(root), ns);
    } else {
      CountZero(p, ns);
    }
  }

  // ---------------------------------------------------------------------------
  // Recorded columns
  // ---------------------------------------------------------------------------

  /** `df["<c>"]`: a subscript of the bare name `df` by the string constant `c`. */
  predicate ReadsField(n: Node, c: string)
  {
    n.Subscript? && n.value.Name? && n.value.id == "df" && n.slice == Constant(Str(c))
  }

  /** A column is recorded exactly when the tree reads it as `df["<c>"]` and it is not a
      date. */
  lemma ColumnRecordedIff(tree: Node, c: string)
    ensures c in RecordedColumns(tree) <==>
      !IsDateLike(c) && exists i :: 0 <= i < |PreOrder(tree)| && ReadsField(PreOrder(tree)[i], c)
  {
    var ns := PreOrder(tree);
    VisitIsPreOrder(tree);
    FlatMapMember(NodeColumns, ns, c);
    assert forall i :: 0 <= i < |ns| ==> (c in NodeColumns(ns[i]) <==> !IsDateLike(c) && ReadsField(ns[i], c));
  }

  /** Date-like fields, non-string subscripts and subscripts of anything but `df` are never
      recorded. */
  lemma NothingElseRecorded(tree: Node, c: string)
    requires IsDateLike(c) || forall i :: 0 <= i < |PreOrder(tree)| ==> !ReadsField(PreOrder(tree)[i], c)
    ensures c !in RecordedColumns(tree)
  {
    ColumnRecordedIff(tree, c);
  }

  lemma DateLikeExamples()
    ensures IsDateLike("2023-01") && IsDateLike("2023-01-15") && IsDateLike("2023-01\n")
    ensures !IsDateLike("2023-1") && !IsDateLike("2023-01-15\n\n") && !IsDateLike("sales")
  {
    var s := "2023-01-15\n\n";
    assert s[..|s| - 1] == "2023-01-15\n";
  }

  /** `_check_columns` reports each recorded column that is not known exactly once, and no
      other column. */
  lemma ColumnIssueCount(tree: Node, known: set<string>, closeMatches: (string, set<string>) -> seq<string>)
    ensures |CheckColumns(Dedup(Visit(tree).columns), known, closeMatches)| == |RecordedColumns(tree) - known|
  {
    var u := UnknownColumns(Dedup(Visit(tree).columns), known);
    assert (set c | c in u) == RecordedColumns(tree) - known;
    DistinctCard(u);
  }

  lemma {:induction false} DistinctCard(s: seq<string>)
    requires NoDuplicates(s)
    ensures |set x | x in s| == |s|
  {
    if s != [] {
      var t := s[1..];
      DistinctCard(t);
      assert (set x | x in s) == {s[0]} + (set x | x in t);
      assert s[0] !in t by {
        assert forall j :: 0 <= j < |t| ==> t[j] == s[j + 1];
      }
    }
  }

  // ---------------------------------------------------------------------------
  // Name check
  // ---------------------------------------------------------------------------

  /** A read of a name that is neither allowed nor a recorded column. */
  predicate IsUnknownRead(n: Node, allowed: set<string>, columns: set<string>)
  {
    IsLoadedName(n) && n.id !in allowed && n.id !in columns
  }

  function UnknownReads(allowed: set<string>, columns: set<string>): Node -> bool
  {
    (n: Node) => IsUnknownRead(n, allowed, columns)
  }

  function ReadsOf(id: string): Node -> bool
  {
    (n: Node) => IsLoadedName(n) && n.id == id
  }

  /** One issue per unknown read, and "unknown variable 'x'" once per read of `x` when `x`
      is neither allowed nor a column, never otherwise. Stores and deletes are not reads. */
  lemma NameIssueCount(tree: Node, allowed: set<string>, columns: set<string>, id: string)
    ensures |NameIssues(tree, allowed, columns)| == Count(UnknownReads(allowed, columns), PreOrder(tree))
    ensures multiset(NameIssues(tree, allowed, columns))[UnknownNameIssue(id)]
         == if id !in allowed && id !in columns then Count(ReadsOf(id), PreOrder(tree)) else 0
  {
    var ns := PreOrder(tree);
    var f := NameIssueOf(allowed, columns);
    var p := (n: Node) => id !in allowed && id !in columns && IsLoadedName(n) && n.id == id;
    forall i | 0 <= i < |ns|
      ensures |f(ns[i])| == (if UnknownReads(allowed, columns)(ns[i]) then 1 else 0)
      ensures multiset(f(ns[i]))[UnknownNameIssue(id)] == (if p(ns[i]) then 1 else 0)
    {
      if ns[i].Name? {
        UnknownNameIssueInjective(ns[i].id, id);
      }
    }
    FlatMapLength(f, UnknownReads(allowed, columns), ns);
    FlatMapMultiplicity(f, ns, UnknownNameIssue(id));
    OccurrencesCount(f, p, ns, UnknownNameIssue(id));
    if id !in allowed && id !in columns {
      CountSame(p, ReadsOf(id), ns);
    } else {
      CountZero(p, ns);
    }
  }

  /** Allowing more names can only remove name issues. */
  lemma NameIssuesShrink(tree: Node, allowed: set<string>, wider: set<string>, columns: set<string>)
    requires allowed <= wider
    ensures multiset(NameIssues(tree, wider, columns)) <= multiset(NameIssues(tree, allowed, columns))
  {
    FlatMapShrinks(NameIssueOf(allowed, columns), NameIssueOf(wider, columns), PreOrder(tree));
  }

  // ---------------------------------------------------------------------------
  // validate_code
  // ---------------------------------------------------------------------------

  /** The guard's acceptance condition, stated without the walk: no flagged node, every
      recorded column is known, and every name read is allowed or a recorded column. */
  predicate Accepted(tree: Node, known: set<string>, allowed: set<string>)
  {
    var ns := PreOrder(tree);
    && (forall i :: 0 <= i < |ns| ==> !IsFlagged(ns[i]))
    && RecordedColumns(tree) <= known
    && (forall i :: 0 <= i < |ns| ==> !IsUnknownRead(ns[i], allowed, RecordedColumns(tree)))
  }

  /** A parsed snippet passes the guard exactly when it meets the acceptance condition. */
  lemma ValidateOkIff(tree: Node, meta: DfMeta, allowedNames: Option<set<string>>,
                      closeMatches: (string, set<string>) -> seq<string>)
    ensures ValidateCode(Ok(tree), meta, allowedNames, closeMatches).ok
        <==> Accepted(tree, KnownColumns(meta), AllowedNames(allowedNames))
  {
    var ns := PreOrder(tree);
    var known := KnownColumns(meta);
    var allowed := AllowedNames(allowedNames);
    var columns := RecordedColumns(tree);
    SafetyErrorCount(tree);
    ColumnIssueCount(tree, known, closeMatches);
    assert RecordedColumns(tree) <= known <==> |columns - known| == 0;
    FlatMapEmpty(NameIssueOf(allowed, columns), ns);
  }

  ghost predicate IsSafetyIssue(s: string)
  {
    || s == ImportIssue
    || (exists callee :: callee in DisallowedCalls && s == CallIssue(callee))
    || (exists root :: IsDisallowedRoot(root) && s == AttributeIssue(root))
  }

  ghost predicate IsColumnIssue(s: string, known: set<string>)
  {
    exists c, suggestions :: c !in known && s == UnknownColumnIssue(c, suggestions)
  }

  ghost predicate IsNameIssue(s: string, allowed: set<string>, columns: set<string>)
  {
    exists id :: id !in allowed && id !in columns && s == UnknownNameIssue(id)
  }

  ghost function NameIssueIn(allowed: set<string>, columns: set<string>): string -> bool
  {
    (s: string) => IsNameIssue(s, allowed, columns)
  }

  /** Every safety error is one of the three safety messages. */
  lemma SafetyErrorsAreSafetyIssues(tree: Node)
    ensures forall y :: y in Visit(tree).errors ==> IsSafetyIssue(y)
  {
    var ns := PreOrder(tree);
    VisitIsPreOrder(tree);
    forall k, y | 0 <= k < |ns| && y in NodeErrors(ns[k])
      ensures IsSafetyIssue(y)
    {
    }
    FlatMapAll(NodeErrors, IsSafetyIssue, ns);
  }

  /** Every column issue names a column that is not known. */
  lemma ColumnIssuesNameUnknownColumns(used: seq<string>, known: set<string>,
                                       closeMatches: (string, set<string>) -> seq<string>)
    ensures forall y :: y in CheckColumns(used, known, closeMatches) ==> IsColumnIssue(y, known)
  {
    var issues := CheckColumns(used, known, closeMatches);
    var unknown := UnknownColumns(used, known);
    forall y | y in issues
      ensures IsColumnIssue(y, known)
    {
      var k :| 0 <= k < |issues| && issues[k] == y;
      assert unknown[k] in unknown;
      assert y == UnknownColumnIssue(unknown[k], closeMatches(unknown[k], known));
    }
  }

  /** Every name issue names a read that is neither allowed nor a column. */
  lemma NameIssuesNameUnknownReads(tree: Node, allowed: set<string>, columns: set<string>)
    ensures forall y :: y in NameIssues(tree, allowed, columns) ==> IsNameIssue(y, allowed, columns)
  {
    var ns := PreOrder(tree);
    forall k, y | 0 <= k < |ns| && y in NameIssueOf(allowed, columns)(ns[k])
      ensures NameIssueIn(allowed, columns)(y)
    {
    }
    FlatMapAll(NameIssueOf(allowed, columns), NameIssueIn(allowed, columns), ns);
  }

  /** The issue list is the safety errors, one per flagged node, then the column issues,
      one per unknown recorded column, then the name issues, one per unknown read. */
  lemma IssueOrder(tree: Node, meta: DfMeta, allowedNames: Option<set<string>>,
                   closeMatches: (string, set<string>) -> seq<string>)
    returns (safety: seq<string>, columnIssues: seq<string>, nameIssues: seq<string>)
    ensures ValidateCode(Ok(tree), meta, allowedNames, closeMatches).issues == safety + columnIssues + nameIssues
    ensures |safety| == Count(IsFlagged, PreOrder(tree))
    ensures forall y :: y in safety ==> IsSafetyIssue(y)
    ensures |columnIssues| == |RecordedColumns(tree) - KnownColumns(meta)|
    ensures forall y :: y in columnIssues ==> IsColumnIssue(y, KnownColumns(meta))
    ensures |nameIssues| == Count(UnknownReads(AllowedNames(allowedNames), RecordedColumns(tree)), PreOrder(tree))
    ensures forall y :: y in nameIssues ==> IsNameIssue(y, AllowedNames(allowedNames), RecordedColumns(tree))
  {
    var known := KnownColumns(meta);
    var allowed := AllowedNames(allowedNames);
    var columns := RecordedColumns(tree);
    safety := Visit(tree).errors;
    columnIssues := CheckColumns(Dedup(Visit(tree).columns), known, closeMatches);
    nameIssues := NameIssues(tree, allowed, columns);
    SafetyErrorCount(tree);
    ColumnIssueCount(tree, known, closeMatches);
    NameIssueCount(tree, allowed, columns, "");
    SafetyErrorsAreSafetyIssues(tree);
    ColumnIssuesNameUnknownColumns(Dedup(Visit(tree).columns), known, closeMatches);
    NameIssuesNameUnknownReads(tree, allowed, columns);
  }

  /** Allowing more names never adds an issue, so a snippet that passes keeps passing. */
  lemma AllowedNamesMonotone(parsed: Result<Node, SyntaxFault>, meta: DfMeta,
                             allowedNames: Option<set<string>>, wider: Option<set<string>>,
                             closeMatches: (string, set<string>) -> seq<string>)
    requires AllowedNames(allowedNames) <= AllowedNames(wider)
    ensures var before := ValidateCode(parsed, meta, allowedNames, closeMatches);
      var after := ValidateCode(parsed, meta, wider, closeMatches);
      && multiset(after.issues) <= multiset(before.issues)
      && (before.ok ==> after.ok)
  {
    if parsed.Ok? {
      var tree := parsed.value;
      var columns := RecordedColumns(tree);
      var common := Visit(tree).errors + CheckColumns(Dedup(Visit(tree).columns), KnownColumns(meta), closeMatches);
      var a := NameIssues(tree, AllowedNames(allowedNames), columns);
      var b := NameIssues(tree, AllowedNames(wider), columns);
      NameIssuesShrink(tree, AllowedNames(allowedNames), AllowedNames(wider), columns);
      assert multiset(common + b) == multiset(common) + multiset(b);
      assert multiset(common + a) == multiset(common) + multiset(a);
    }
  }

  // ---------------------------------------------------------------------------
  // Worked examples
  // ---------------------------------------------------------------------------

  /** `os.path.join(...)`: both attribute nodes are rooted at `os`, so two issues. */
  lemma OsPathJoinTwoIssues()
    ensures Visit(Call(Chain(Name("os", Load), ["path", "join"]), [])).errors
         == [AttributeIssue("os"), AttributeIssue("os")]
  {
    assert IsPrefix(DisallowedAttrPrefixes[0], "os");
    var inner := Attribute(Name("os", Load), "path");
    var outer := Attribute(inner, "join");
    assert Chain(Name("os", Load), ["path", "join"]) == outer by {
      assert ["path", "join"][..1] == ["path"];
      assert ["path"][..0] == [];
    }
  }

  /** A denied prefix also catches longer roots, and a harmless root passes. */
  lemma PrefixRootExamples()
    ensures IsDisallowedRoot("osmium") && IsDisallowedRoot("__builtins__")
    ensures !IsDisallowedRoot("df") && !IsDisallowedRoot("")
  {
    assert IsPrefix(DisallowedAttrPrefixes[0], "osmium");
    assert IsPrefix(DisallowedAttrPrefixes[10], "__builtins__");
    assert !HasDisallowedPrefix("df") by {
      forall i | 0 <= i < |DisallowedAttrPrefixes|
        ensures !IsPrefix(DisallowedAttrPrefixes[i], "df")
      {
        assert DisallowedAttrPrefixes[i][0] != 'd' || DisallowedAttrPrefixes[i][1] != 'f';
      }
    }
  }

  /** `df["2023-01"]` is an index slice: nothing is recorded, and it passes. */
  lemma DateSliceAccepted(closeMatches: (string, set<string>) -> seq<string>)
    ensures ValidateCode(Ok(Subscript(Name("df", Load), Constant(Str("2023-01")))), DfMeta(Some([])), None, closeMatches)
         == Verdict(true, [])
  {
    var tree := Subscript(Name("df", Load), Constant(Str("2023-01")));
    assert IsDateLike("2023-01");
    assert Visit(tree) == Walk([], []);
    assert PreOrder(tree) == [tree, Name("df", Load), Constant(Str("2023-01"))];
  }

  /** `df["temprature"].mean()` against a frame with a `temperature` column: one column
      issue carrying the matcher's suggestion, and nothing else. */
  lemma MisspelledColumnExample(tree: Node, closeMatches: (string, set<string>) -> seq<string>)
    requires tree == Call(Attribute(Subscript(Name("df", Load), Constant(Str("temprature"))), "mean"), [])
    requires closeMatches("temprature", {"temperature"}) == ["temperature"]
    ensures ValidateCode(Ok(tree), DfMeta(Some(["temperature"])), None, closeMatches)
         == Verdict(false, [UnknownColumnIssue("temprature", ["temperature"])])
  {
    MisspelledColumnWalk(tree);
    assert Dedup(["temprature"]) == ["temprature"];
    assert RecordedColumns(tree) == {"temprature"};
    MisspelledColumnCheck(closeMatches);
    MisspelledColumnNames(tree);
  }

  lemma MisspelledColumnCheck(closeMatches: (string, set<string>) -> seq<string>)
    requires closeMatches("temprature", {"temperature"}) == ["temperature"]
    ensures CheckColumns(["temprature"], KnownColumns(DfMeta(Some(["temperature"]))), closeMatches)
         == [UnknownColumnIssue("temprature", ["temperature"])]
  {
    var col := "temprature";
    var known := KnownColumns(DfMeta(Some(["temperature"])));
    assert known == {"temperature"};
    assert col !in known by {
      assert col[4] != "temperature"[4];
    }
  }

  lemma MisspelledColumnWalk(tree: Node)
    requires tree == Call(Attribute(Subscript(Name("df", Load), Constant(Str("temprature"))), "mean"), [])
    ensures Visit(tree) == Walk([], ["temprature"])
  {
    var col := "temprature";
    var field := tree.func.value;
    assert !IsDateLike(col) by {
      assert col[4] != '-';
    }
    assert ColumnOf(field) == Some(col);
    assert Visit(field) == Walk([], [col]);
    assert RootName(tree.func) == None;
    assert Visit(tree.func) == Walk([], [col]);
  }

  lemma MisspelledColumnNames(tree: Node)
    requires tree == Call(Attribute(Subscript(Name("df", Load), Constant(Str("temprature"))), "mean"), [])
    ensures NameIssues(tree, AllowedNames(None), {"temprature"}) == []
  {
    var field := tree.func.value;
    var ns := PreOrder(tree);
    assert ns == [tree, tree.func, field, field.value, field.slice];
    assert "df" in AllowedNames(None);
    FlatMapEmpty(NameIssueOf(AllowedNames(None), {"temprature"}), ns);
  }

  /** `import os` followed by `os.system("ls")`: the import, the attribute root, and the
      unbound read of `os` are each reported, in that order. */
  lemma ImportOsExample(tree: Node, closeMatches: (string, set<string>) -> seq<string>)
    requires tree == Other([Import, Other([Call(Attribute(Name("os", Load), "system"), [Constant(Str("ls"))])])])
    ensures ValidateCode(Ok(tree), DfMeta(None), None, closeMatches).issues
         == [ImportIssue, AttributeIssue("os"), UnknownNameIssue("os")]
  {
    ImportOsWalk(tree);
    assert RecordedColumns(tree) == {};
    assert Dedup(Visit(tree).columns) == [];
    ImportOsNames(tree);
  }

  lemma ImportOsWalk(tree: Node)
    requires tree == Other([Import, Other([Call(Attribute(Name("os", Load), "system"), [Constant(Str("ls"))])])])
    ensures Visit(tree) == Walk([ImportIssue, AttributeIssue("os")], [])
  {
    var stmt := tree.children[1];
    var call := stmt.children[0];
    assert IsPrefix(DisallowedAttrPrefixes[0], "os");
    assert Visit(call.func) == Walk([AttributeIssue("os")], []);
    VisitOne(call.args[0]);
    assert Visit(call) == Walk([AttributeIssue("os")], []);
    VisitOne(call);
    VisitTwo(Import, stmt);
  }

  lemma ImportOsNames(tree: Node)
    requires tree == Other([Import, Other([Call(Attribute(Name("os", Load), "system"), [Constant(Str("ls"))])])])
    ensures NameIssues(tree, AllowedNames(None), {}) == [UnknownNameIssue("os")]
  {
    var f := NameIssueOf(AllowedNames(None), {});
    assert "os" !in AllowedNames(None);
    var quiet, name, arg := ImportOsNodes(tree);
    FlatMapEmpty(f, quiet);
    FlatMapConcat(f, quiet, [name, arg]);
    FlatMapConcat(f, [name], [arg]);
    FlatMapSingleton(f, name);
    FlatMapSingleton(f, arg);
  }

  lemma ImportOsNodes(tree: Node) returns (quiet: seq<Node>, name: Node, arg: Node)
    requires tree == Other([Import, Other([Call(Attribute(Name("os", Load), "system"), [Constant(Str("ls"))])])])
    ensures PreOrder(tree) == quiet + [name, arg]
    ensures forall k :: 0 <= k < |quiet| ==> !quiet[k].Name?
    ensures name == Name("os", Load) && arg == Constant(Str("ls"))
  {
    var stmt := tree.children[1];
    var call := stmt.children[0];
    var attr := call.func;
    name := attr.value;
    arg := call.args[0];
    quiet := [tree, Import, stmt, call, attr];
    PreOrderOne(arg);
    PreOrderOne(call);
    PreOrderTwo(Import, stmt);
  }

  lemma VisitOne(a: Node)
    ensures VisitAll([a]) == Visit(a)
  {
    assert [a][1..] == [];
  }

  lemma VisitTwo(a: Node, b: Node)
    ensures VisitAll([a, b]) == Visit(a).Then(Visit(b))
  {
    assert [a, b][1..] == [b];
    VisitOne(b);
  }

  lemma PreOrderOne(a: Node)
    ensures PreOrderAll([a]) == PreOrder(a)
  {
    assert [a][1..] == [];
  }

  lemma PreOrderTwo(a: Node, b: Node)
    ensures PreOrderAll([a, b]) == PreOrder(a) + PreOrder(b)
  {
    assert [a, b][1..] == [b];
    PreOrderOne(b);
  }
}

=== FILE: meta_agent.dfy ===
/** The bounded repair loop: generate code from the user's prompt, check it with the
    static guard, run it in the sandbox, and on failure ask the model again with a
    repair prompt, at most `MaxTries` times. The model, the guard and the sandbox are
    parameters; every call the loop makes is recorded as an event. */
module MetaAgent {
  import opened Options
  import opened Text
  import opened Fences
  import opened PyAst
  import opened Guard

  const MaxTries: nat := 3

  const RepairIntro: string := "\n\n---\nPrevious attempt failed on "
  const RepairFeedback: string := "\n\nError message / critic feedback:\n"
  const RepairRequest: string := "\n\nPlease rewrite the code so it works, assign the final answer to _ , and return only the Python code."

  /** `build_repair_prompt`: the original prompt followed by a block naming the failure,
      the failing code and the stripped error message. */
  function BuildRepairPrompt(base: string, badCode: string, errorType: string, errorMsg: string): string
  {
    base + RepairIntro + ("**" + errorType + "**") + ":\n" + badCode
      + RepairFeedback + Strip(errorMsg)
      + RepairRequest
  }

  /** The repair prompt starts with the original prompt and carries the failure kind, the
      failing code and the stripped message. */
  lemma RepairPromptEmbeds(base: string, badCode: string, errorType: string, errorMsg: string)
    ensures var r := BuildRepairPrompt(base, badCode, errorType, errorMsg);
      && IsPrefix(base, r)
      && HasInfix(r, "**" + errorType + "**")
      && HasInfix(r, badCode)
      && HasInfix(r, Strip(errorMsg))
  {
    Embeds(base + RepairIntro, "**" + errorType + "**", ":\n", badCode, RepairFeedback, Strip(errorMsg), RepairRequest);
    assert (base + RepairIntro)[..|base|] == base;
  }

  /** The prompt `generate_code_sequence` sends: the loaded template, the request, and an
      `Output:` cue. */
  function WrapPrompt(template: string, prompt: string): string
  {
    template + "\nUser query: " + prompt + "\n\nOutput:"
  }

  /** `generate_code_sequence`: the model's `call`-th reply to the wrapped prompt, stripped,
      with its fence and a leading `python` tag removed. */
  function GenerateCodeSequence(template: string, llm: (nat, string) -> string, call: nat, prompt: string): string
  {
    Unfence(Strip(llm(call, WrapPrompt(template, prompt))), "python")
  }

  /** The generated code never has surrounding whitespace; a reply that opens with a fence
      yields code without any fence; an unfenced, untagged reply is kept as it is. */
  lemma GeneratedCodeFacts(template: string, llm: (nat, string) -> string, call: nat, prompt: string)
    ensures var reply := Strip(llm(call, WrapPrompt(template, prompt)));
      var r := GenerateCodeSequence(template, llm, call, prompt);
      && Strip(r) == r
      && (IsPrefix(Fence, reply) ==> !HasInfix(r, Fence))
      && (!IsPrefix(Fence, reply) && !StartsWithIgnoringCase(reply, "python") ==> r == reply)
      && (!IsPrefix(Fence, reply) && StartsWithIgnoringCase(reply, "python") ==> r == Strip(reply[|"python"|..]))
  {
    UnfenceStrippedFacts(llm(call, WrapPrompt(template, prompt)), "python");
  }

  /** The request the model sees starts with the template and carries the prompt. */
  lemma WrapPromptEmbeds(template: string, prompt: string)
    ensures IsPrefix(template, WrapPrompt(template, prompt)) && HasInfix(WrapPrompt(template, prompt), prompt)
  {
    var r := WrapPrompt(template, prompt);
    assert r[..|template|] == template;
    InfixOfConcat(template + "\nUser query: ", prompt, "\n\nOutput:");
  }

  /** What the sandbox reports for one run. */
  datatype ExecOutcome<R> = ExecOk(result: R) | ExecError(error: string)

  datatype FailureKind = GuardFailure | SandboxFailure

  function KindName(kind: FailureKind): string
  {
    match kind
    case GuardFailure => "guard"
    case SandboxFailure => "sandbox"
  }

  /** `error_type` and `error_msg` of a failed attempt. */
  datatype Failure = Failure(kind: FailureKind, message: string)

  /** The message the guard's verdict becomes: its issues joined by "; ". */
  function GuardMessage(v: Verdict): string
  {
    Join(v.issues, "; ")
  }

  function ExhaustedMessage(f: Failure): string
  {
    "Failed after " + NatToString(MaxTries) + " tries (" + KindName(f.kind) + "): " + f.message
  }

  /** The exhausted message names the number of tries, the failure kind and its message. */
  lemma ExhaustedMessageText(message: string)
    ensures ExhaustedMessage(Failure(GuardFailure, message)) == "Failed after 3 tries (guard): " + message
    ensures ExhaustedMessage(Failure(SandboxFailure, message)) == "Failed after 3 tries (sandbox): " + message
  {
    assert NatToString(3) == "3";
  }

  /** One call the loop makes: to the model (with its call number and the prompt before
      wrapping), to the guard, or to the sandbox (each with the attempt number). */
  datatype Event<R> =
    | Generated(call: nat, prompt: string, code: string)
    | Guarded(attempt: nat, code: string, verdict: Verdict)
    | Executed(attempt: nat, code: string, outcome: ExecOutcome<R>)

  /** The dictionary `try_generate_and_execute` returns. */
  datatype Outcome<R> = Succeeded(code: string, result: R) | Failed(code: string, error: string)

  datatype Run<R> = Run(outcome: Outcome<R>, trace: seq<Event<R>>)

  /** The loop's collaborators: the code generator (indexed by call number), the guard,
      the sandbox (indexed by attempt number), and the repair-prompt builder. */
  datatype Collaborators<R> = Collaborators(
    generate: (nat, string) -> string,
    guard: string -> Verdict,
    sandbox: (nat, string) -> ExecOutcome<R>,
    repair: (string, string, string, string) -> string)

  /** The collaborators `try_generate_and_execute` is wired to: `generate_code_sequence`
      over the loaded template, `validate_code` with the frame's columns,
      `run_in_repl`, and `build_repair_prompt`. */
  function Wired<R>(template: string, llm: (nat, string) -> string, parse: string -> Result<Node, SyntaxFault>,
                    columns: seq<string>, closeMatches: (string, set<string>) -> seq<string>,
                    sandbox: (nat, string) -> ExecOutcome<R>): Collaborators<R>
  {
    Collaborators(CodeGenerator(template, llm), ValidateWithColumns(parse, columns, closeMatches), sandbox, BuildRepairPrompt)
  }

  /** `generate_code_sequence` over a loaded template and a model. */
  function CodeGenerator(template: string, llm: (nat, string) -> string): (nat, string) -> string
  {
    (call: nat, prompt: string) => GenerateCodeSequence(template, llm, call, prompt)
  }

  /** What one attempt decided: the sandbox's result, or the failure to repair. */
  datatype Judgement<R> = Passed(result: R) | Rejected(failure: Failure)

  /** One attempt's checks: the guard, and the sandbox only if the guard passed. */
  function Judge<R>(env: Collaborators<R>, attempt: nat, code: string): (Judgement<R>, seq<Event<R>>)
  {
    var v := env.guard(code);
    if !v.ok then (Rejected(Failure(GuardFailure, GuardMessage(v))), [Guarded(attempt, code, v)])
    else
      var o := env.sandbox(attempt, code);
      var events := [Guarded(attempt, code, v), Executed(attempt, code, o)];
      match o
      case ExecOk(r) => (Passed(r), events)
      case ExecError(e) => (Rejected(Failure(SandboxFailure, e)), events)
  }

  /** Iterations `attempt`..`MaxTries` of the loop, starting with `code`. */
  function AttemptsFrom<R>(env: Collaborators<R>, base: string, attempt: nat, code: string): Run<R>
    requires 1 <= attempt <= MaxTries
    decreases MaxTries - attempt
  {
    var (judgement, events) := Judge(env, attempt, code);
    match judgement
    case Passed(r) => Run(Succeeded(code, r), events)
    case Rejected(f) =>
      var repair := env.repair(base, code, KindName(f.kind), f.message);
      var next := env.generate(attempt, repair);
      var trace := events + [Generated(attempt, repair, next)];
      if attempt == MaxTries then Run(Failed(next, ExhaustedMessage(f)), trace)
      else
        var rest := AttemptsFrom(env, base, attempt + 1, next);
        Run(rest.outcome, trace + rest.trace)
  }

  /** `try_generate_and_execute`: a first generation from the original prompt, then the
      attempts. */
  function TryGenerateAndExecute<R>(env: Collaborators<R>, base: string): Run<R>
  {
    var first := env.generate(0, base);
    var rest := AttemptsFrom(env, base, 1, first);
    Run(rest.outcome, [Generated(0, base, first)] + rest.trace)
  }

  /** The loop as written: a `for` over the attempt numbers with an early return. */
  method TryGenerateAndExecuteLoop<R>(env: Collaborators<R>, base: string) returns (outcome: Outcome<R>, trace: seq<Event<R>>)
    ensures Run(outcome, trace) == TryGenerateAndExecute(env, base)
  {
    var code := env.generate(0, base);
    trace := [Generated(0, base, code)];
    var last := Failure(GuardFailure, "");
    var attempt := 1;
    ghost var spec := TryGenerateAndExecute(env, base);
    LoopEntry(env, base);
    while attempt <= MaxTries
      invariant 1 <= attempt <= MaxTries + 1
      invariant spec == Remaining(env, base, attempt, code, last, trace)
      decreases MaxTries + 1 - attempt
    {
      var judgement, events := CheckAttempt(env, attempt, code);
      if judgement.Passed? {
        return Succeeded(code, judgement.result), trace + events;
      }
      code, trace := Repair(env, base, attempt, code, judgement.failure, events, last, trace);
      last := judgement.failure;
      attempt := attempt + 1;
    }
    outcome := Failed(code, ExhaustedMessage(last));
  }

  /** The end of a failed iteration: build the repair prompt from the original prompt and
      generate the next candidate. */
  method Repair<R>(env: Collaborators<R>, base: string, attempt: nat, code: string, failure: Failure,
                   events: seq<Event<R>>, last: Failure, trace: seq<Event<R>>)
    returns (next: string, trace': seq<Event<R>>)
    requires 1 <= attempt <= MaxTries
    requires Judge(env, attempt, code) == (Rejected(failure), events)
    ensures Remaining(env, base, attempt, code, last, trace) == Remaining(env, base, attempt + 1, next, failure, trace')
  {
    var repair := env.repair(base, code, KindName(failure.kind), failure.message);
    next := env.generate(attempt, repair);
    RejectedStep(env, base, attempt, code, failure, events, repair, next, last, trace);
    trace' := trace + events + [Generated(attempt, repair, next)];
  }

  /** What the loop still returns from the head of iteration `attempt`, given the trace so
      far: the remaining attempts, or after the last one the exhausted result. */
  function Remaining<R>(env: Collaborators<R>, base: string, attempt: nat, code: string, last: Failure,
                        trace: seq<Event<R>>): Run<R>
    requires 1 <= attempt <= MaxTries + 1
  {
    if attempt <= MaxTries then
      var rest := AttemptsFrom(env, base, attempt, code);
      Run(rest.outcome, trace + rest.trace)
    else Run(Failed(code, ExhaustedMessage(last)), trace)
  }

  lemma LoopEntry<R>(env: Collaborators<R>, base: string)
    ensures TryGenerateAndExecute(env, base)
         == Remaining(env, base, 1, env.generate(0, base), Failure(GuardFailure, ""), [Generated(0, base, env.generate(0, base))])
  {
  }

  /** How an attempt that failed continues: with a repair generation, then either the
      exhausted result or the next attempt. */
  lemma RejectedStep<R>(env: Collaborators<R>, base: string, attempt: nat, code: string,
                        failure: Failure, events: seq<Event<R>>, repair: string, next: string,
                        last: Failure, trace: seq<Event<R>>)
    requires 1 <= attempt <= MaxTries
    requires Judge(env, attempt, code) == (Rejected(failure), events)
    requires repair == env.repair(base, code, KindName(failure.kind), failure.message)
    requires next == env.generate(attempt, repair)
    ensures Remaining(env, base, attempt, code, last, trace)
         == Remaining(env, base, attempt + 1, next, failure, trace + events + [Generated(attempt, repair, next)])
  {
    var step := events + [Generated(attempt, repair, next)];
    AttemptsFromRejected(env, base, attempt, code, failure, events, repair, next);
    if attempt < MaxTries {
      var rest := AttemptsFrom(env, base, attempt + 1, next);
      assert trace + (step + rest.trace) == trace + events + [Generated(attempt, repair, next)] + rest.trace;
    }
  }

  lemma AttemptsFromPassed<R>(env: Collaborators<R>, base: string, attempt: nat, code: string,
                              result: R, events: seq<Event<R>>)
    requires 1 <= attempt <= MaxTries
    requires Judge(env, attempt, code) == (Passed(result), events)
    ensures AttemptsFrom(env, base, attempt, code) == Run(Succeeded(code, result), events)
  {
  }

  lemma AttemptsFromRejected<R>(env: Collaborators<R>, base: string, attempt: nat, code: string,
                                failure: Failure, events: seq<Event<R>>, repair: string, next: string)
    requires 1 <= attempt <= MaxTries
    requires Judge(env, attempt, code) == (Rejected(failure), events)
    requires repair == env.repair(base, code, KindName(failure.kind), failure.message)
    requires next == env.generate(attempt, repair)
    ensures attempt == MaxTries ==>
      AttemptsFrom(env, base, attempt, code) == Run(Failed(next, ExhaustedMessage(failure)), events + [Generated(attempt, repair, next)])
    ensures attempt < MaxTries ==>
      AttemptsFrom(env, base, attempt, code)
        == Run(AttemptsFrom(env, base, attempt + 1, next).outcome,
               events + [Generated(attempt, repair, next)] + AttemptsFrom(env, base, attempt + 1, next).trace)
  {
    var here := AttemptsFrom(env, base, attempt, code);
    var step := events + [Generated(attempt, repair, next)];
    if attempt == MaxTries {
      assert here == Run(Failed(next, ExhaustedMessage(failure)), step);
    } else {
      var rest := AttemptsFrom(env, base, attempt + 1, next);
      assert here == Run(rest.outcome, step + rest.trace);
    }
  }

  /** The body of one iteration up to the repair: the guard is consulted once, the sandbox
      runs only on code the guard passed, the attempt passes only when the sandbox succeeds,
      and a rejection carries the joined issues or the sandbox's error. */
  method CheckAttempt<R>(env: Collaborators<R>, attempt: nat, code: string) returns (judgement: Judgement<R>, events: seq<Event<R>>)
    ensures |events| == (if env.guard(code).ok then 2 else 1)
    ensures events[0] == Guarded(attempt, code, env.guard(code))
    ensures env.guard(code).ok ==> events[1] == Executed(attempt, code, env.sandbox(attempt, code))
    ensures !env.guard(code).ok ==> judgement == Rejected(Failure(GuardFailure, GuardMessage(env.guard(code))))
    ensures judgement.Passed? <==> env.guard(code).ok && env.sandbox(attempt, code).ExecOk?
    ensures judgement.Passed? ==> env.sandbox(attempt, code) == ExecOk(judgement.result)
    ensures env.guard(code).ok && env.sandbox(attempt, code).ExecError? ==>
      judgement == Rejected(Failure(SandboxFailure, env.sandbox(attempt, code).error))
    ensures (judgement, events) == Judge(env, attempt, code)
  {
    var verdict := env.guard(code);
    if !verdict.ok {
      return Rejected(Failure(GuardFailure, GuardMessage(verdict))), [Guarded(attempt, code, verdict)];
    }
    var run := env.sandbox(attempt, code);
    events := [Guarded(attempt, code, verdict), Executed(attempt, code, run)];
    if run.ExecOk? {
      return Passed(run.result), events;
    }
    judgement := Rejected(Failure(SandboxFailure, run.error));
  }

  /** The guard the loop uses: `validate_code` with the frame's columns and no extra names,
      on what the parser makes of the code. */
  function ValidateWithColumns(parse: string -> Result<Node, SyntaxFault>, columns: seq<string>,
                               closeMatches: (string, set<string>) -> seq<string>): string -> Verdict
  {
    (code: string) => ValidateCode(parse(code), DfMeta(Some(columns)), None, closeMatches)
  }
}

=== FILE: options.dfy ===
/** Optional values and success-or-error results, used for the parser's
    verdict, `_root_name`'s possibly-missing root and the JSON oracle. */
module Options {

  datatype Option<+T> = None | Some(value: T)

  /** The outcome of an operation that either produces a value or an error. */
  datatype Result<+T, +E> = Ok(value: T) | Err(error: E)
}

=== FILE: pyast.dfy ===
/** The part of Python's abstract syntax tree that the guard looks at. Every
    node kind the guard has a handler for is its own constructor; all other
    nodes (Module, Expr, Assign, BinOp, keyword, ...) are `Other` with their
    child nodes in field order, which is the order a generic visit takes. */
module PyAst {

  datatype ExprContext = Load | Store | Del

  /** The value a `Constant` node holds: a string, or any literal that is not a
      string (a number, bytes, a boolean, `None`, `...`). */
  datatype Literal = Str(s: string) | NonStr

  datatype Node =
    | Import
    | ImportFrom
    | Call(func: Node, args: seq<Node>)   // args: positional arguments, then keyword nodes
    | Attribute(value: Node, attr: string)
    | Subscript(value: Node, slice: Node)
    | Name(id: string, ctx: ExprContext)
    | Constant(lit: Literal)
    | Other(children: seq<Node>)

  /** Every node of the tree, each before its children, children left to right:
      the order in which a visitor that calls `generic_visit` meets them. */
  function PreOrder(n: Node): (r: seq<Node>)
    ensures |r| > 0 && r[0] == n
    decreases n
  {
    match n
    case Call(f, args) => [n] + PreOrder(f) + PreOrderAll(args)
    case Attribute(v, _) => [n] + PreOrder(v)
    case Subscript(v, s) => [n] + PreOrder(v) + PreOrder(s)
    case Other(cs) => [n] + PreOrderAll(cs)
    case _ => [n]
  }

  function PreOrderAll(ns: seq<Node>): seq<Node>
    decreases ns
  {
    if ns == [] then [] else PreOrder(ns[0]) + PreOrderAll(ns[1..])
  }

  /** The attribute chain `base.a1.a2...` as nested `Attribute` nodes. */
  function Chain(base: Node, attrs: seq<string>): Node
  {
    if attrs == [] then base else Attribute(Chain(base, attrs[..|attrs| - 1]), attrs[|attrs| - 1])
  }
}

=== FILE: repair_loop.dfy ===
/** What the repair loop promises, stated over the trace of calls it makes. */
module RepairLoop {
  import opened Options
  import opened Text
  import opened Seqs
  import opened PyAst
  import opened Guard
  import opened GuardLemmas
  import opened MetaAgent

  predicate IsGenerated<R>(e: Event<R>)
  {
    e.Generated?
  }

  predicate IsGuarded<R>(e: Event<R>)
  {
    e.Guarded?
  }

  predicate IsExecuted<R>(e: Event<R>)
  {
    e.Executed?
  }

  /** A guard rejection or a sandbox error. */
  predicate IsFailing<R>(e: Event<R>)
  {
    || (e.Guarded? && !e.verdict.ok)
    || (e.Executed? && e.outcome.ExecError?)
  }

  /** The failure a guard rejection or a sandbox error stands for. */
  function FailureOf<R>(e: Event<R>): Failure
    requires IsFailing(e)
  {
    if e.Guarded? then Failure(GuardFailure, GuardMessage(e.verdict)) else Failure(SandboxFailure, e.outcome.error)
  }

  /** The model's call number `attempt` after attempt `attempt` failed with `f`: the
      repair prompt built on the original prompt and the failing code, and the model's reply. */
  function Regeneration<R>(env: Collaborators<R>, base: string, attempt: nat, code: string, f: Failure): Event<R>
  {
    var prompt := env.repair(base, code, KindName(f.kind), f.message);
    Generated(attempt, prompt, env.generate(attempt, prompt))
  }

  /** The step from one call to the next: the code of model call `n` goes to the guard in
      attempt `n + 1`; code the guard passes goes to the sandbox in the same attempt; a
      rejection or a sandbox error in attempt `k` is followed by model call `k` on the
      repair prompt, whose code is what the model returns for it. */
  ghost predicate Follows<R>(env: Collaborators<R>, base: string, a: Event<R>, b: Event<R>)
  {
    match a
    case Generated(n, _, code) => b == Guarded(n + 1, code, env.guard(code))
    case Guarded(k, code, v) =>
      if v.ok then b == Executed(k, code, env.sandbox(k, code))
      else b == Regeneration(env, base, k, code, Failure(GuardFailure, GuardMessage(v)))
    case Executed(k, code, o) =>
      o.ExecError? && b == Regeneration(env, base, k, code, Failure(SandboxFailure, o.error))
  }

  /** Call `i` of `t` follows call `i - 1`. */
  ghost predicate StepAt<R>(env: Collaborators<R>, base: string, t: seq<Event<R>>, i: int)
  {
    0 < i < |t| ==> Follows(env, base, t[i - 1], t[i])
  }

  ghost predicate Steps<R>(env: Collaborators<R>, base: string, t: seq<Event<R>>)
  {
    forall i :: StepAt(env, base, t, i)
  }

  lemma StepsConcat<R>(env: Collaborators<R>, base: string, x: seq<Event<R>>, e: Event<R>, y: seq<Event<R>>)
    requires Steps(env, base, x + [e]) && Steps(env, base, [e] + y)
    ensures Steps(env, base, x + [e] + y)
  {
    var t := x + [e] + y;
    forall i
      ensures StepAt(env, base, t, i)
    {
      if 0 < i <= |x| {
        assert StepAt(env, base, x + [e], i);
        assert t[i - 1] == (x + [e])[i - 1] && t[i] == (x + [e])[i];
      } else if |x| < i < |t| {
        assert StepAt(env, base, [e] + y, i - |x|);
        assert t[i - 1] == ([e] + y)[i - 1 - |x|] && t[i] == ([e] + y)[i - |x|];
      }
    }
  }

  lemma StepsPair<R>(env: Collaborators<R>, base: string, a: Event<R>, b: Event<R>)
    requires Follows(env, base, a, b)
    ensures Steps(env, base, [a, b])
  {
    forall i
      ensures StepAt(env, base, [a, b], i)
    {
    }
  }

  lemma StepsExtend<R>(env: Collaborators<R>, base: string, t: seq<Event<R>>, b: Event<R>)
    requires Steps(env, base, t) && |t| > 0 && Follows(env, base, t[|t| - 1], b)
    ensures Steps(env, base, t + [b])
  {
    var u := t + [b];
    forall i
      ensures StepAt(env, base, u, i)
    {
      if 0 < i < |t| {
        assert StepAt(env, base, t, i);
        assert u[i - 1] == t[i - 1] && u[i] == t[i];
      }
    }
  }

  /** The calls of one attempt follow the generation that produced its code, and a failed
      attempt's repair generation follows them. */
  lemma AttemptSteps<R>(env: Collaborators<R>, base: string, attempt: nat, code: string, prompt: string,
                        judgement: Judgement<R>, events: seq<Event<R>>)
    requires 1 <= attempt && Judge(env, attempt, code) == (judgement, events)
    ensures Steps(env, base, [Generated(attempt - 1, prompt, code)] + events)
    ensures judgement.Rejected? ==>
      Steps(env, base, [Generated(attempt - 1, prompt, code)] + events
        + [Regeneration(env, base, attempt, code, judgement.failure)])
  {
    var head := Generated(attempt - 1, prompt, code);
    var v := env.guard(code);
    var guarded := Guarded(attempt, code, v);
    StepsPair(env, base, head, guarded);
    if !v.ok {
      assert events == [guarded];
      assert [head] + events == [head, guarded];
      StepsExtend(env, base, [head, guarded], Regeneration(env, base, attempt, code, judgement.failure));
    } else {
      var o := env.sandbox(attempt, code);
      var executed := Executed(attempt, code, o);
      assert events == [guarded, executed];
      StepsExtend(env, base, [head, guarded], executed);
      assert [head] + events == [head, guarded] + [executed];
      if o.ExecError? {
        StepsExtend(env, base, [head] + events, Regeneration(env, base, attempt, code, judgement.failure));
      }
    }
  }

  /** After a rejected attempt: the repair prompt built from its failure, and the code the
      model generates from it. */
  function RepairAfter<R>(env: Collaborators<R>, base: string, attempt: nat, code: string): string
    requires Judge(env, attempt, code).0.Rejected?
  {
    var f := Judge(env, attempt, code).0.failure;
    env.repair(base, code, KindName(f.kind), f.message)
  }

  function NextAfter<R>(env: Collaborators<R>, base: string, attempt: nat, code: string): string
    requires Judge(env, attempt, code).0.Rejected?
  {
    env.generate(attempt, RepairAfter(env, base, attempt, code))
  }

  /** From the generation that produced `code`, every call of the remaining attempts
      follows the one before it. */
  lemma {:induction false} AttemptsSteps<R>(env: Collaborators<R>, base: string, attempt: nat, code: string, prompt: string)
    requires 1 <= attempt <= MaxTries
    ensures Steps(env, base, [Generated(attempt - 1, prompt, code)] + AttemptsFrom(env, base, attempt, code).trace)
    decreases MaxTries - attempt, 1
  {
    if Judge(env, attempt, code).0.Passed? {
      PassedSteps(env, base, attempt, code, prompt);
    } else {
      RejectedSteps(env, base, attempt, code, prompt);
    }
  }

  lemma PassedSteps<R>(env: Collaborators<R>, base: string, attempt: nat, code: string, prompt: string)
    requires 1 <= attempt <= MaxTries && Judge(env, attempt, code).0.Passed?
    ensures Steps(env, base, [Generated(attempt - 1, prompt, code)] + AttemptsFrom(env, base, attempt, code).trace)
  {
    var judged := Judge(env, attempt, code);
    AttemptSteps(env, base, attempt, code, prompt, judged.0, judged.1);
    AttemptsFromPassed(env, base, attempt, code, judged.0.result, judged.1);
  }

  lemma {:induction false} RejectedSteps<R>(env: Collaborators<R>, base: string, attempt: nat, code: string, prompt: string)
    requires 1 <= attempt <= MaxTries && Judge(env, attempt, code).0.Rejected?
    ensures Steps(env, base, [Generated(attempt - 1, prompt, code)] + AttemptsFrom(env, base, attempt, code).trace)
    decreases MaxTries - attempt, 0
  {
    var events := Judge(env, attempt, code).1;
    var repair, next := RepairAfter(env, base, attempt, code), NextAfter(env, base, attempt, code);
    RejectedRun(env, base, attempt, code, prompt);
    if attempt < MaxTries {
      AttemptsSteps(env, base, attempt + 1, next, repair);
      StepsJoin(env, base, Generated(attempt - 1, prompt, code), events, Generated(attempt, repair, next),
                AttemptsFrom(env, base, attempt + 1, next).trace);
    } else {
      StepsJoin(env, base, Generated(attempt - 1, prompt, code), events, Generated(attempt, repair, next), []);
      assert events + [Generated(attempt, repair, next)] + [] == events + [Generated(attempt, repair, next)];
    }
  }

  /** A rejected attempt's part of the run: its calls, the repair generation, then the
      remaining attempts if any. */
  lemma RejectedRun<R>(env: Collaborators<R>, base: string, attempt: nat, code: string, prompt: string)
    requires 1 <= attempt <= MaxTries && Judge(env, attempt, code).0.Rejected?
    ensures var events := Judge(env, attempt, code).1;
      var gen := Generated(attempt, RepairAfter(env, base, attempt, code), NextAfter(env, base, attempt, code));
      && Steps(env, base, [Generated(attempt - 1, prompt, code)] + events + [gen])
      && (attempt == MaxTries ==> AttemptsFrom(env, base, attempt, code).trace == events + [gen])
      && (attempt < MaxTries ==>
            AttemptsFrom(env, base, attempt, code).trace
              == events + [gen] + AttemptsFrom(env, base, attempt + 1, NextAfter(env, base, attempt, code)).trace)
  {
    var judged := Judge(env, attempt, code);
    var repair, next := RepairAfter(env, base, attempt, code), NextAfter(env, base, attempt, code);
    AttemptSteps(env, base, attempt, code, prompt, judged.0, judged.1);
    AttemptsFromRejected(env, base, attempt, code, judged.0.failure, judged.1, repair, next);
  }

  /** Gluing a head, an attempt's calls, a repair generation and the rest of the run. */
  lemma StepsJoin<R>(env: Collaborators<R>, base: string, head: Event<R>, events: seq<Event<R>>, gen: Event<R>,
                     rest: seq<Event<R>>)
    requires Steps(env, base, [head] + events + [gen]) && Steps(env, base, [gen] + rest)
    ensures Steps(env, base, [head] + (events + [gen] + rest))
  {
    StepsConcat(env, base, [head] + events, gen, rest);
    assert [head] + (events + [gen] + rest) == [head] + events + [gen] + rest;
  }

  /** The whole run: it starts with a generation from the original prompt, and every call
      follows the one before it. */
  lemma TraceSteps<R>(env: Collaborators<R>, base: string)
    ensures var t := TryGenerateAndExecute(env, base).trace;
      |t| > 0 && t[0] == Generated(0, base, env.generate(0, base)) && Steps(env, base, t)
  {
    AttemptsSteps(env, base, 1, env.generate(0, base), base);
  }

  /** The sandbox only ever runs code the model generated and the guard then passed, in
      the attempt that follows the model call, and the run records the sandbox's outcome. */
  lemma SandboxOnlyAfterGuard<R>(env: Collaborators<R>, base: string)
    ensures var t := TryGenerateAndExecute(env, base).trace;
      forall i :: 0 <= i < |t| && t[i].Executed? ==>
        2 <= i && t[i - 1] == Guarded(t[i].attempt, t[i].code, env.guard(t[i].code)) && env.guard(t[i].code).ok
        && t[i].outcome == env.sandbox(t[i].attempt, t[i].code)
        && t[i - 2].Generated? && t[i - 2].code == t[i].code && t[i - 2].call + 1 == t[i].attempt
  {
    var t := TryGenerateAndExecute(env, base).trace;
    TraceSteps(env, base);
    forall i | 0 <= i < |t| && t[i].Executed?
      ensures 2 <= i && t[i - 1] == Guarded(t[i].attempt, t[i].code, env.guard(t[i].code)) && env.guard(t[i].code).ok
      ensures t[i].outcome == env.sandbox(t[i].attempt, t[i].code)
      ensures t[i - 2].Generated? && t[i - 2].code == t[i].code && t[i - 2].call + 1 == t[i].attempt
    {
      assert StepAt(env, base, t, i);
      assert StepAt(env, base, t, i - 1);
    }
  }

  /** Every call to the guard checks the code of the generation just before it. */
  lemma GuardAfterGeneration<R>(env: Collaborators<R>, base: string)
    ensures var t := TryGenerateAndExecute(env, base).trace;
      forall i :: 0 <= i < |t| && t[i].Guarded? ==>
        1 <= i && t[i - 1].Generated? && t[i - 1].code == t[i].code && t[i].verdict == env.guard(t[i].code)
        && t[i - 1].call + 1 == t[i].attempt
  {
    var t := TryGenerateAndExecute(env, base).trace;
    TraceSteps(env, base);
    forall i | 0 <= i < |t| && t[i].Guarded?
      ensures 1 <= i && t[i - 1].Generated? && t[i - 1].code == t[i].code && t[i].verdict == env.guard(t[i].code)
      ensures t[i - 1].call + 1 == t[i].attempt
    {
      assert StepAt(env, base, t, i);
    }
  }

  /** The first prompt is the user's; every later one is the repair prompt built from the
      original prompt and the failure just before it. */
  lemma PromptsFromBase<R>(env: Collaborators<R>, base: string)
    ensures var t := TryGenerateAndExecute(env, base).trace;
      forall i :: 0 <= i < |t| && t[i].Generated? ==>
        && (i == 0 ==> t[i].prompt == base)
        && (i > 0 ==>
              && IsFailing(t[i - 1])
              && t[i].prompt == env.repair(base, t[i - 1].code, KindName(FailureOf(t[i - 1]).kind), FailureOf(t[i - 1]).message))
  {
    var t := TryGenerateAndExecute(env, base).trace;
    TraceSteps(env, base);
    forall i | 0 <= i < |t| && t[i].Generated?
      ensures i == 0 ==> t[i].prompt == base
      ensures i > 0 ==>
        && IsFailing(t[i - 1])
        && t[i].prompt == env.repair(base, t[i - 1].code, KindName(FailureOf(t[i - 1]).kind), FailureOf(t[i - 1]).message)
    {
      if i > 0 {
        assert StepAt(env, base, t, i);
      }
    }
  }

  /** With `build_repair_prompt` as the builder, every prompt the model sees starts with the
      original prompt, so each retry still carries the full question; a repair prompt also
      carries the failing code and the failure's stripped message. */
  lemma PromptsKeepBase<R>(env: Collaborators<R>, base: string)
    requires env.repair == BuildRepairPrompt
    ensures var t := TryGenerateAndExecute(env, base).trace;
      forall i :: 0 <= i < |t| && t[i].Generated? ==>
        && IsPrefix(base, t[i].prompt)
        && (i > 0 ==> IsFailing(t[i - 1]) && HasInfix(t[i].prompt, t[i - 1].code) && HasInfix(t[i].prompt, Strip(FailureOf(t[i - 1]).message)))
  {
    var t := TryGenerateAndExecute(env, base).trace;
    PromptsFromBase(env, base);
    forall i | 0 <= i < |t| && t[i].Generated?
      ensures IsPrefix(base, t[i].prompt)
      ensures i > 0 ==> IsFailing(t[i - 1]) && HasInfix(t[i].prompt, t[i - 1].code) && HasInfix(t[i].prompt, Strip(FailureOf(t[i - 1]).message))
    {
      if i > 0 {
        var f := FailureOf(t[i - 1]);
        RepairPromptEmbeds(base, t[i - 1].code, KindName(f.kind), f.message);
      } else {
        assert base[..|base|] == base;
      }
    }
  }

  /** One attempt calls the guard once and the model never; it calls the sandbox once if
      the guard passed the code and not at all otherwise, and passes only code the guard
      passed. */
  lemma JudgeCounts<R>(env: Collaborators<R>, attempt: nat, code: string)
    ensures Count(IsGuarded, Judge(env, attempt, code).1) == 1
    ensures Count(IsGenerated, Judge(env, attempt, code).1) == 0
    ensures Count(IsExecuted, Judge(env, attempt, code).1) == (if env.guard(code).ok then 1 else 0)
    ensures Judge(env, attempt, code).0.Passed? ==> env.guard(code).ok
  {
    var v := env.guard(code);
    if v.ok {
      var events := [Guarded(attempt, code, v), Executed(attempt, code, env.sandbox(attempt, code))];
      assert Judge(env, attempt, code).1 == events;
      CountPair(IsGuarded, events[0], events[1]);
      CountPair(IsGenerated, events[0], events[1]);
      CountPair(IsExecuted, events[0], events[1]);
    } else {
      var g: Event<R> := Guarded(attempt, code, v);
      var none: seq<Event<R>> := [];
      assert Judge(env, attempt, code).1 == [g] == none + [g];
      CountStep(IsGuarded, none, g);
      CountStep(IsGenerated, none, g);
      CountStep(IsExecuted, none, g);
    }
  }

  lemma CountPair<R>(p: Event<R> -> bool, a: Event<R>, b: Event<R>)
    ensures Count(p, [a, b]) == (if p(a) then 1 else 0) + (if p(b) then 1 else 0)
  {
    var none: seq<Event<R>> := [];
    CountStep(p, [a], b);
    CountStep(p, none, a);
    assert none + [a] == [a];
    assert [a] + [b] == [a, b];
  }

  /** Counts over the attempts from `attempt` on: one guard call per attempt, one repair
      generation per failed attempt, at most one sandbox run per guard call, and every
      attempt used up when the run fails. */
  predicate CountsFrom<R>(run: Run<R>, attempt: nat)
  {
    && 1 <= Count(IsGuarded, run.trace) <= MaxTries + 1 - attempt
    && Count(IsGenerated, run.trace) + (if run.outcome.Succeeded? then 1 else 0) == Count(IsGuarded, run.trace)
    && Count(IsExecuted, run.trace) <= Count(IsGuarded, run.trace)
    && (run.outcome.Succeeded? ==> Count(IsExecuted, run.trace) >= 1)
    && (run.outcome.Failed? ==> Count(IsGuarded, run.trace) == MaxTries + 1 - attempt)
  }

  lemma {:induction false} AttemptsCounts<R>(env: Collaborators<R>, base: string, attempt: nat, code: string)
    requires 1 <= attempt <= MaxTries
    ensures CountsFrom(AttemptsFrom(env, base, attempt, code), attempt)
    decreases MaxTries - attempt, 1
  {
    if Judge(env, attempt, code).0.Passed? {
      PassedCounts(env, base, attempt, code);
    } else {
      RejectedCounts(env, base, attempt, code);
    }
  }

  lemma PassedCounts<R>(env: Collaborators<R>, base: string, attempt: nat, code: string)
    requires 1 <= attempt <= MaxTries && Judge(env, attempt, code).0.Passed?
    ensures CountsFrom(AttemptsFrom(env, base, attempt, code), attempt)
  {
    var judged := Judge(env, attempt, code);
    JudgeCounts(env, attempt, code);
    AttemptsFromPassed(env, base, attempt, code, judged.0.result, judged.1);
  }

  lemma {:induction false} RejectedCounts<R>(env: Collaborators<R>, base: string, attempt: nat, code: string)
    requires 1 <= attempt <= MaxTries && Judge(env, attempt, code).0.Rejected?
    ensures CountsFrom(AttemptsFrom(env, base, attempt, code), attempt)
    decreases MaxTries - attempt, 0
  {
    var judged := Judge(env, attempt, code);
    var failure, events := judged.0.failure, judged.1;
    var repair, next := RepairAfter(env, base, attempt, code), NextAfter(env, base, attempt, code);
    JudgeCounts(env, attempt, code);
    AttemptsFromRejected(env, base, attempt, code, failure, events, repair, next);
    var gen := Generated(attempt, repair, next);
    var step := events + [gen];
    CountStep(IsGuarded, events, gen);
    CountStep(IsGenerated, events, gen);
    CountStep(IsExecuted, events, gen);
    if attempt < MaxTries {
      AttemptsCounts(env, base, attempt + 1, next);
      var rest := AttemptsFrom(env, base, attempt + 1, next).trace;
      CountConcat(IsGuarded, step, rest);
      CountConcat(IsGenerated, step, rest);
      CountConcat(IsExecuted, step, rest);
    }
  }

  lemma CountStep<R>(p: Event<R> -> bool, events: seq<Event<R>>, e: Event<R>)
    ensures Count(p, events + [e]) == Count(p, events) + (if p(e) then 1 else 0)
  {
    CountConcat(p, events, [e]);
    assert [e][1..] == [];
  }

  /** The loop's call counts: the guard runs once per attempt, between one and `MaxTries`
      times; the model runs once more than the guard when the run fails and as often as
      the guard when it succeeds; the sandbox runs at most as often as the guard, and at
      least once when the run succeeds; a failed run has used every attempt. */
  lemma RunCounts<R>(env: Collaborators<R>, base: string)
    ensures var run := TryGenerateAndExecute(env, base);
      var guards := Count(IsGuarded, run.trace);
      && 1 <= guards <= MaxTries
      && Count(IsGenerated, run.trace) == guards + (if run.outcome.Failed? then 1 else 0)
      && Count(IsExecuted, run.trace) <= guards
      && (run.outcome.Succeeded? ==> Count(IsExecuted, run.trace) >= 1)
      && (run.outcome.Failed? ==> guards == MaxTries && Count(IsGenerated, run.trace) == MaxTries + 1)
  {
    var first := env.generate(0, base);
    var rest := AttemptsFrom(env, base, 1, first);
    AttemptsCounts(env, base, 1, first);
    assert CountsFrom(rest, 1);
    CountConcat(IsGuarded, [Generated(0, base, first)], rest.trace);
    CountConcat(IsGenerated, [Generated(0, base, first)], rest.trace);
    CountConcat(IsExecuted, [Generated(0, base, first)], rest.trace);
  }

  /** How a run of attempts ends: a success with the sandbox's run of the returned code,
      just after the guard passed it in the same attempt; a failure with model call
      `MaxTries`, whose reply is the returned code, just after the failure of attempt
      `MaxTries` that the exhausted message reports. */
  ghost predicate EndsWell<R>(env: Collaborators<R>, run: Run<R>)
  {
    var t := run.trace;
    && |t| >= 2
    && (run.outcome.Succeeded? ==>
          && t[|t| - 1].Executed? && t[|t| - 1].code == run.outcome.code
          && t[|t| - 1].outcome == ExecOk(run.outcome.result)
          && env.sandbox(t[|t| - 1].attempt, run.outcome.code) == ExecOk(run.outcome.result)
          && t[|t| - 2] == Guarded(t[|t| - 1].attempt, run.outcome.code, env.guard(run.outcome.code))
          && env.guard(run.outcome.code).ok)
    && (run.outcome.Failed? ==>
          && t[|t| - 1].Generated? && t[|t| - 1].call == MaxTries
          && run.outcome.code == t[|t| - 1].code == env.generate(MaxTries, t[|t| - 1].prompt)
          && IsFailing(t[|t| - 2]) && t[|t| - 2].attempt == MaxTries
          && run.outcome.error == ExhaustedMessage(FailureOf(t[|t| - 2])))
  }

  lemma {:induction false} AttemptsEnd<R>(env: Collaborators<R>, base: string, attempt: nat, code: string)
    requires 1 <= attempt <= MaxTries
    ensures EndsWell(env, AttemptsFrom(env, base, attempt, code))
    decreases MaxTries - attempt, 1
  {
    if Judge(env, attempt, code).0.Passed? {
      var judged := Judge(env, attempt, code);
      AttemptsFromPassed(env, base, attempt, code, judged.0.result, judged.1);
    } else {
      RejectedEnd(env, base, attempt, code);
    }
  }

  lemma {:induction false} RejectedEnd<R>(env: Collaborators<R>, base: string, attempt: nat, code: string)
    requires 1 <= attempt <= MaxTries && Judge(env, attempt, code).0.Rejected?
    ensures EndsWell(env, AttemptsFrom(env, base, attempt, code))
    decreases MaxTries - attempt, 0
  {
    var judged := Judge(env, attempt, code);
    var failure, events := judged.0.failure, judged.1;
    var repair, next := RepairAfter(env, base, attempt, code), NextAfter(env, base, attempt, code);
    AttemptsFromRejected(env, base, attempt, code, failure, events, repair, next);
    var step := events + [Generated(attempt, repair, next)];
    if attempt < MaxTries {
      AttemptsEnd(env, base, attempt + 1, next);
      EndsWellAfter(env, step, AttemptsFrom(env, base, attempt + 1, next));
    } else {
      RejectionLast(env, attempt, code, failure, events);
      EndsWellExhausted(env, events, failure, Generated(attempt, repair, next));
    }
  }

  /** The last call of a rejected attempt is the failure it reports. */
  lemma RejectionLast<R>(env: Collaborators<R>, attempt: nat, code: string, failure: Failure, events: seq<Event<R>>)
    requires Judge(env, attempt, code) == (Rejected(failure), events)
    ensures |events| > 0 && IsFailing(events[|events| - 1]) && FailureOf(events[|events| - 1]) == failure
    ensures events[|events| - 1].attempt == attempt
  {
  }

  lemma EndsWellExhausted<R>(env: Collaborators<R>, events: seq<Event<R>>, failure: Failure, gen: Event<R>)
    requires |events| > 0 && IsFailing(events[|events| - 1]) && FailureOf(events[|events| - 1]) == failure
    requires events[|events| - 1].attempt == MaxTries
    requires gen.Generated? && gen.call == MaxTries && gen.code == env.generate(MaxTries, gen.prompt)
    ensures EndsWell(env, Run(Failed(gen.code, ExhaustedMessage(failure)), events + [gen]))
  {
    var t := events + [gen];
    assert t[|t| - 2] == events[|events| - 1];
  }

  lemma EndsWellAfter<R>(env: Collaborators<R>, prefix: seq<Event<R>>, run: Run<R>)
    requires EndsWell(env, run)
    ensures EndsWell(env, Run(run.outcome, prefix + run.trace))
  {
    var t := prefix + run.trace;
    assert t[|t| - 1] == run.trace[|run.trace| - 1] && t[|t| - 2] == run.trace[|run.trace| - 2];
  }

  /** A successful run returns the sandbox's result for the code it returns, and that code
      was the last one the guard checked and passed; a failed run returns the last
      generated code, which no guard call follows, and reports the failure of the attempt
      before it. */
  lemma RunEnds<R>(env: Collaborators<R>, base: string)
    ensures var run := TryGenerateAndExecute(env, base);
      EndsWell(env, run)
  {
    var first := env.generate(0, base);
    var rest := AttemptsFrom(env, base, 1, first);
    AttemptsEnd(env, base, 1, first);
    EndsWellAfter(env, [Generated(0, base, first)], rest);
  }

  /** With `validate_code` as the guard, the sandbox only ever runs code that parses and
      meets the guard's acceptance condition for the frame's columns and the base names. */
  lemma ExecutedCodeIsAccepted<R>(parse: string -> Result<Node, SyntaxFault>, columns: seq<string>,
                                  closeMatches: (string, set<string>) -> seq<string>,
                                  env: Collaborators<R>, base: string)
    requires env.guard == ValidateWithColumns(parse, columns, closeMatches)
    ensures var t := TryGenerateAndExecute(env, base).trace;
      forall i :: 0 <= i < |t| && t[i].Executed? ==>
        parse(t[i].code).Ok? && Accepted(parse(t[i].code).value, KnownColumns(DfMeta(Some(columns))), BaseAllowedNames)
  {
    var t := TryGenerateAndExecute(env, base).trace;
    SandboxOnlyAfterGuard(env, base);
    forall i | 0 <= i < |t| && t[i].Executed?
      ensures parse(t[i].code).Ok? && Accepted(parse(t[i].code).value, KnownColumns(DfMeta(Some(columns))), BaseAllowedNames)
    {
      var code := t[i].code;
      assert env.guard(code).ok;
      if parse(code).Ok? {
        ValidateOkIff(parse(code).value, DfMeta(Some(columns)), None, closeMatches);
      }
    }
  }
}

=== FILE: seqs.dfy ===
/** Generic sequence operations: counting, filtering, flat-mapping and
    order-preserving de-duplication. */
module Seqs {

  /** The number of elements of `s` that satisfy `p`. */
  function Count<T>(p: T -> bool, s: seq<T>): nat
  {
    if s == [] then 0 else (if p(s[0]) then 1 else 0) + Count(p, s[1..])
  }

  lemma {:induction false} CountConcat<T>(p: T -> bool, a: seq<T>, b: seq<T>)
    ensures Count(p, a + b) == Count(p, a) + Count(p, b)
  {
    if a == [] {
      assert a + b == b;
    } else {
      assert (a + b)[1..] == a[1..] + b;
      CountConcat(p, a[1..], b);
    }
  }

  /** `Count` is zero exactly when no element satisfies the predicate. */
  lemma {:induction false} CountZero<T>(p: T -> bool, s: seq<T>)
    ensures Count(p, s) == 0 <==> forall i :: 0 <= i < |s| ==> !p(s[i])
  {
    if s != [] {
      CountZero(p, s[1..]);
      assert forall i :: 1 <= i < |s| ==> s[i] == s[1..][i - 1];
    }
  }

  /** Two predicates that agree on every element count the same. */
  lemma {:induction false} CountSame<T>(p: T -> bool, q: T -> bool, s: seq<T>)
    requires forall i :: 0 <= i < |s| ==> p(s[i]) == q(s[i])
    ensures Count(p, s) == Count(q, s)
  {
    if s != [] {
      assert forall i :: 1 <= i < |s| ==> s[1..][i - 1] == s[i];
      CountSame(p, q, s[1..]);
    }
  }

  /** The concatenation of `f(x)` over the elements `x` of `s`, in order. */
  function FlatMap<T, U>(f: T -> seq<U>, s: seq<T>): seq<U>
  {
    if s == [] then [] else f(s[0]) + FlatMap(f, s[1..])
  }

  lemma {:induction false} FlatMapConcat<T, U>(f: T -> seq<U>, a: seq<T>, b: seq<T>)
    ensures FlatMap(f, a + b) == FlatMap(f, a) + FlatMap(f, b)
  {
    if a == [] {
      assert a + b == b;
    } else {
      assert (a + b)[1..] == a[1..] + b;
      FlatMapConcat(f, a[1..], b);
    }
  }

  lemma FlatMapSingleton<T, U>(f: T -> seq<U>, x: T)
    ensures FlatMap(f, [x]) == f(x)
  {
    assert [x][1..] == [];
  }

  /** A flat map is empty exactly when every element contributes nothing. */
  lemma {:induction false} FlatMapEmpty<T, U>(f: T -> seq<U>, s: seq<T>)
    ensures FlatMap(f, s) == [] <==> forall i :: 0 <= i < |s| ==> f(s[i]) == []
  {
    if s != [] {
      FlatMapEmpty(f, s[1..]);
      assert forall i :: 1 <= i < |s| ==> s[i] == s[1..][i - 1];
    }
  }

  /** `y` occurs in a flat map exactly when some element contributes it. */
  lemma {:induction false} FlatMapMember<T, U>(f: T -> seq<U>, s: seq<T>, y: U)
    ensures y in FlatMap(f, s) <==> exists i :: 0 <= i < |s| && y in f(s[i])
  {
    if s != [] {
      FlatMapMember(f, s[1..], y);
      if y in FlatMap(f, s[1..]) {
        var i :| 0 <= i < |s[1..]| && y in f(s[1..][i]);
        assert s[1..][i] == s[i + 1];
      }
      if exists i :: 0 <= i < |s| && y in f(s[i]) {
        var i :| 0 <= i < |s| && y in f(s[i]);
        if i > 0 {
          assert s[i] == s[1..][i - 1];
        }
      }
    }
  }

  /** How often `y` occurs in a flat map: the sum of its occurrences in each contribution. */
  function Occurrences<T, U(==)>(f: T -> seq<U>, s: seq<T>, y: U): nat
  {
    if s == [] then 0 else multiset(f(s[0]))[y] + Occurrences(f, s[1..], y)
  }

  lemma {:induction false} FlatMapMultiplicity<T, U>(f: T -> seq<U>, s: seq<T>, y: U)
    ensures multiset(FlatMap(f, s))[y] == Occurrences(f, s, y)
  {
    if s != [] {
      FlatMapMultiplicity(f, s[1..], y);
      assert multiset(f(s[0]) + FlatMap(f, s[1..])) == multiset(f(s[0])) + multiset(FlatMap(f, s[1..]));
    }
  }

  /** When each element contributes `y` at most once, and exactly when it satisfies `p`,
      the occurrences of `y` count the elements satisfying `p`. */
  lemma {:induction false} OccurrencesCount<T, U>(f: T -> seq<U>, p: T -> bool, s: seq<T>, y: U)
    requires forall i :: 0 <= i < |s| ==> multiset(f(s[i]))[y] == (if p(s[i]) then 1 else 0)
    ensures Occurrences(f, s, y) == Count(p, s)
  {
    if s != [] {
      assert forall i :: 1 <= i < |s| ==> s[1..][i - 1] == s[i];
      OccurrencesCount(f, p, s[1..], y);
    }
  }

  /** When each element contributes one value if it satisfies `p` and none otherwise, the
      flat map has one value per element satisfying `p`. */
  lemma {:induction false} FlatMapLength<T, U>(f: T -> seq<U>, p: T -> bool, s: seq<T>)
    requires forall i :: 0 <= i < |s| ==> |f(s[i])| == (if p(s[i]) then 1 else 0)
    ensures |FlatMap(f, s)| == Count(p, s)
  {
    if s != [] {
      assert forall i :: 1 <= i < |s| ==> s[1..][i - 1] == s[i];
      FlatMapLength(f, p, s[1..]);
    }
  }

  /** Every value of a flat map has a property every contribution has. */
  lemma {:induction false} FlatMapAll<T, U>(f: T -> seq<U>, q: U -> bool, s: seq<T>)
    requires forall i, y :: 0 <= i < |s| && y in f(s[i]) ==> q(y)
    ensures forall y :: y in FlatMap(f, s) ==> q(y)
  {
    if s != [] {
      assert forall i :: 1 <= i < |s| ==> s[1..][i - 1] == s[i];
      FlatMapAll(f, q, s[1..]);
    }
  }

  /** A flat map whose every contribution shrinks (as a multiset) shrinks as a whole. */
  lemma {:induction false} FlatMapShrinks<T, U>(f: T -> seq<U>, g: T -> seq<U>, s: seq<T>)
    requires forall i :: 0 <= i < |s| ==> multiset(g(s[i])) <= multiset(f(s[i]))
    ensures multiset(FlatMap(g, s)) <= multiset(FlatMap(f, s))
  {
    if s != [] {
      assert forall i :: 1 <= i < |s| ==> s[1..][i - 1] == s[i];
      FlatMapShrinks(f, g, s[1..]);
      assert multiset(FlatMap(g, s)) == multiset(g(s[0])) + multiset(FlatMap(g, s[1..]));
      assert multiset(FlatMap(f, s)) == multiset(f(s[0])) + multiset(FlatMap(f, s[1..]));
    }
  }

  predicate NoDuplicates<T(==)>(s: seq<T>)
  {
    forall i, j :: 0 <= i < j < |s| ==> s[i] != s[j]
  }

  /** The distinct elements of `s`, each at the position of its first occurrence. */
  function Dedup<T(==,!new)>(s: seq<T>): (r: seq<T>)
    ensures NoDuplicates(r)
    ensures forall x :: x in r <==> x in s
    ensures |r| <= |s|
  {
    if s == [] then []
    else
      var last := s[|s| - 1];
      var d := Dedup(s[..|s| - 1]);
      assert forall x :: x in s <==> x in s[..|s| - 1] || x == last;
      if last in d then d else d + [last]
  }
}

=== FILE: text.dfy ===
/** String helpers shared by the guard, the repair loop and the critic:
    prefix and infix tests, Python's `str.strip`, an ASCII case-insensitive
    prefix test, `str.join` and decimal rendering of naturals. */
module Text {

  /** `s.startswith(p)`. */
  predicate IsPrefix(p: string, s: string)
  {
    |p| <= |s| && s[..|p|] == p
  }

  /** True iff `p` occurs in `s` as one contiguous block (`p in s` in Python). */
  predicate HasInfix(s: string, p: string)
    decreases |s|
  {
    IsPrefix(p, s) || (|s| > 0 && HasInfix(s[1..], p))
  }

  /** `p` occurs in `s` starting at position `k`. */
  predicate OccursAt(s: string, p: string, k: int)
  {
    0 <= k && k + |p| <= |s| && s[k..k + |p|] == p
  }

  lemma {:induction false} InfixAt(s: string, p: string, k: nat)
    requires OccursAt(s, p, k)
    ensures HasInfix(s, p)
    decreases k
  {
    if k == 0 {
      assert s[..|p|] == p;
    } else {
      assert s[1..][k - 1..k - 1 + |p|] == s[k..k + |p|];
      InfixAt(s[1..], p, k - 1);
    }
  }

  /** The position of some occurrence of `p` in `s`. */
  lemma {:induction false} InfixWitness(s: string, p: string) returns (k: nat)
    requires HasInfix(s, p)
    ensures OccursAt(s, p, k)
    decreases |s|
  {
    if IsPrefix(p, s) {
      k := 0;
    } else {
      var k' := InfixWitness(s[1..], p);
      assert s[1..][k'..k' + |p|] == s[k' + 1..k' + 1 + |p|];
      k := k' + 1;
    }
  }

  /** `p` is not an infix of `s` when no block of `s` equals it. */
  lemma {:induction false} NotInfix(s: string, p: string)
    requires forall k :: !OccursAt(s, p, k)
    ensures !HasInfix(s, p)
    decreases |s|
  {
    assert !OccursAt(s, p, 0);
    assert !IsPrefix(p, s) by {
      if |p| <= |s| {
        assert s[..|p|] == s[0..|p|];
      }
    }
    if |s| > 0 {
      forall k | 0 <= k && k + |p| <= |s[1..]|
        ensures !OccursAt(s[1..], p, k)
      {
        assert !OccursAt(s, p, k + 1);
        assert s[1..][k..k + |p|] == s[k + 1..k + 1 + |p|];
      }
      NotInfix(s[1..], p);
    }
  }

  lemma InfixOfConcat(a: string, p: string, b: string)
    ensures HasInfix(a + p + b, p)
  {
    assert OccursAt(a + p + b, p, |a|);
    InfixAt(a + p + b, p, |a|);
  }

  /** An infix of a slice of `s` is an infix of `s`. */
  lemma InfixOfSlice(s: string, i: nat, j: nat, p: string)
    requires i <= j <= |s| && HasInfix(s[i..j], p)
    ensures HasInfix(s, p)
  {
    var k := InfixWitness(s[i..j], p);
    forall t | 0 <= t < |p|
      ensures s[i + k..i + k + |p|][t] == p[t]
    {
      assert s[i..j][k..k + |p|][t] == p[t];
    }
    assert OccursAt(s, p, i + k);
    InfixAt(s, p, i + k);
  }

  /** The characters Python's `str.isspace` accepts, which `str.strip()` removes. */
  predicate IsSpace(c: char)
  {
    || c == ' ' || '\t' <= c <= '\r' || '\U{001C}' <= c <= '\U{001F}'
    || c == '\U{0085}' || c == '\U{00A0}' || c == '\U{1680}' || '\U{2000}' <= c <= '\U{200A}'
    || c == '\U{2028}' || c == '\U{2029}' || c == '\U{202F}' || c == '\U{205F}' || c == '\U{3000}'
  }

  /** `s.lstrip()`: the longest suffix of `s` that does not start with a space. */
  function StripLeft(s: string): (r: string)
    ensures |r| <= |s| && r == s[|s| - |r|..]
    ensures forall i :: 0 <= i < |s| - |r| ==> IsSpace(s[i])
    ensures r == [] || !IsSpace(r[0])
  {
    if |s| > 0 && IsSpace(s[0]) then StripLeft(s[1..]) else s
  }

  /** `s.rstrip()`: the longest prefix of `s` that does not end with a space. */
  function StripRight(s: string): (r: string)
    ensures |r| <= |s| && r == s[..|r|]
    ensures forall i :: |r| <= i < |s| ==> IsSpace(s[i])
    ensures r == [] || !IsSpace(r[|r| - 1])
  {
    if |s| > 0 && IsSpace(s[|s| - 1]) then StripRight(s[..|s| - 1]) else s
  }

  /** `s.strip()`: `s` with its leading and trailing spaces removed. */
  function Strip(s: string): (r: string)
    ensures |r| <= |s|
    ensures r == [] || (!IsSpace(r[0]) && !IsSpace(r[|r| - 1]))
  {
    StripRight(StripLeft(s))
  }

  /** `strip()` keeps a contiguous block of its argument, and everything around
      that block is space. */
  lemma StripIsSlice(s: string) returns (i: nat, j: nat)
    ensures i <= j <= |s| && Strip(s) == s[i..j]
    ensures forall k :: 0 <= k < i ==> IsSpace(s[k])
    ensures forall k :: j <= k < |s| ==> IsSpace(s[k])
  {
    var l := StripLeft(s);
    var r := StripRight(l);
    i := |s| - |l|;
    j := i + |r|;
    assert l == s[i..];
    assert r == l[..|r|];
    forall k | j <= k < |s|
      ensures IsSpace(s[k])
    {
      assert s[k] == l[k - i];
    }
    assert s[i..][..|r|] == s[i..j];
  }

  /** A string without leading or trailing spaces is left alone by `strip()`. */
  lemma StripTrimmed(s: string)
    requires s == [] || (!IsSpace(s[0]) && !IsSpace(s[|s| - 1]))
    ensures Strip(s) == s
  {
  }

  lemma StripIdempotent(s: string)
    ensures Strip(Strip(s)) == Strip(s)
  {
    StripTrimmed(Strip(s));
  }

  /** Lower-casing of ASCII letters; every other character is unchanged. */
  function AsciiLower(c: char): (r: char)
    ensures 'A' <= c <= 'Z' ==> 'a' <= r <= 'z' && r as int - 'a' as int == c as int - 'A' as int
    ensures !('A' <= c <= 'Z') ==> r == c
  {
    if 'A' <= c <= 'Z' then (c as int - 'A' as int + 'a' as int) as char else c
  }

  /** `s.lower().startswith(tag)` for a lower-case ASCII `tag`. */
  predicate StartsWithIgnoringCase(s: string, tag: string)
  {
    |tag| <= |s| && forall i :: 0 <= i < |tag| ==> AsciiLower(s[i]) == tag[i]
  }

  /** The combined length of the parts. */
  function TotalLength(parts: seq<string>): nat
  {
    if parts == [] then 0 else |parts[0]| + TotalLength(parts[1..])
  }

  /** `sep.join(parts)`: every part appears in the result, the first one at its start, and
      the result is as long as the parts plus one separator between each two neighbours. */
  function Join(parts: seq<string>, sep: string): (r: string)
    ensures parts == [] ==> r == []
    ensures |parts| == 1 ==> r == parts[0]
    ensures |parts| > 0 ==> IsPrefix(parts[0], r)
    ensures |parts| > 0 ==> |r| == TotalLength(parts) + (|parts| - 1) * |sep|
    ensures forall i :: 0 <= i < |parts| ==> HasInfix(r, parts[i])
  {
    if parts == [] then []
    else if |parts| == 1 then parts[0]
    else
      var rest := Join(parts[1..], sep);
      var r := parts[0] + sep + rest;
      assert r[..|parts[0]|] == parts[0];
      InfixAt(r, parts[0], 0);
      forall i | 1 <= i < |parts|
        ensures HasInfix(r, parts[i])
      {
        assert parts[i] == parts[1..][i - 1];
        assert HasInfix(rest, parts[1..][i - 1]);
        assert r[|parts[0] + sep|..|r|] == rest;
        InfixOfSlice(r, |parts[0] + sep|, |r|, parts[i]);
      }
      assert (|parts| - 1) * |sep| == |sep| + (|parts| - 2) * |sep|;
      r
  }

  /** Joining one more part appends the separator and then that part: read from the left,
      the parts appear in order with exactly one separator between neighbours. */
  lemma {:induction false} JoinSnoc(parts: seq<string>, sep: string, p: string)
    requires |parts| > 0
    ensures Join(parts + [p], sep) == Join(parts, sep) + sep + p
    decreases |parts|
  {
    if |parts| == 1 {
      assert (parts + [p])[1..] == [p];
    } else {
      assert (parts + [p])[1..] == parts[1..] + [p];
      JoinSnoc(parts[1..], sep, p);
    }
  }

  lemma JoinThreeExample()
    ensures Join(["a", "b", "c"], "; ") == "a; b; c"
  {
    JoinSnoc(["a", "b"], "; ", "c");
    JoinSnoc(["a"], "; ", "b");
    assert ["a"] + ["b"] == ["a", "b"];
    assert ["a", "b"] + ["c"] == ["a", "b", "c"];
  }

  predicate IsDigit(c: char)
  {
    '0' <= c <= '9'
  }

  predicate AllDigits(s: string)
  {
    forall i :: 0 <= i < |s| ==> IsDigit(s[i])
  }

  function DigitChar(d: nat): (c: char)
    requires d < 10
    ensures IsDigit(c) && c as int - '0' as int == d
  {
    ('0' as int + d) as char
  }

  /** The number a string of decimal digits denotes. */
  function DecimalValue(s: string): nat
    requires AllDigits(s)
  {
    if s == [] then 0 else DecimalValue(s[..|s| - 1]) * 10 + (s[|s| - 1] as int - '0' as int)
  }

  /** `str(n)` for a natural number: canonical decimal digits denoting `n`. */
  function NatToString(n: nat): (r: string)
    ensures |r| > 0 && AllDigits(r)
    ensures r[0] == '0' ==> n == 0 && |r| == 1
    ensures DecimalValue(r) == n
    decreases n
  {
    if n < 10 then [DigitChar(n)]
    else
      var r := NatToString(n / 10) + [DigitChar(n % 10)];
      assert r[..|r| - 1] == NatToString(n / 10);
      r
  }

  /** The second, fourth and sixth of seven concatenated pieces occur in the whole. */
  lemma Embeds(a: string, b: string, c: string, d: string, e: string, f: string, g: string)
    ensures var r := a + b + c + d + e + f + g;
      && IsPrefix(a, r) && HasInfix(r, b) && HasInfix(r, d) && HasInfix(r, f)
  {
    var r := a + b + c + d + e + f + g;
    assert r[..|a|] == a;
    assert r == a + b + (c + d + e + f + g);
    InfixOfConcat(a, b, c + d + e + f + g);
    assert r == (a + b + c) + d + (e + f + g);
    InfixOfConcat(a + b + c, d, e + f + g);
    assert r == (a + b + c + d + e) + f + g;
    InfixOfConcat(a + b + c + d + e, f, g);
  }
}
